=== FILE: README.md ===
# cv-tailor-web client logic in Dafny

A functional model of the decision-making core of the cv-tailor-web front end.
The front end builds profiles and tailors resumes against a REST backend.
The model covers:

- the request client `fetchAPI` (URL and header construction, the single error
  message a failed response turns into) and the `getAll` query strings;
- URL normalisation and the profile payload of the create-profile page;
- the sign-up page's field updates, validation order, registration payload
  and failure messages;
- the profile builder's four lists (work experience, skills, certifications,
  projects) with their append, replace-by-id and filter-by-id handlers, the
  session token, the "Present" date label and the tab counts;
- the four profile forms: initial state, field updates, guards, payload
  cleaning and failure messages;
- the theme provider as a state machine over theme, persisted value and the
  `dark` class.

Everything is a pure function over immutable records. The browser and the
network are explicit inputs:

- a response is an `Api.Exchange` value;
- a settled promise is a `Js.Outcome`;
- `window.confirm` is a `confirmed` flag;
- `matchMedia` is a `prefersDark` flag;
- local storage and the root element's class are fields of `Theme.ThemeState`.

Modules follow the source files: `Api` (lib/api.ts), `CreateProfile`,
`Signup`, `ProfileBuilder`, `WorkExperienceForm`, `SkillSelector`,
`CertificationForm`, `ProjectForm` and `Theme`. Shared helpers live in
`Wrappers`, `Js`, `Decimal`, `Text` and `Forms`:

- `Wrappers`: an `Option` type.
- `Js`: string truthiness, `trim` and UTF-16 `length`, thrown values, and ids
  compared with `===`.
- `Decimal`: how `${n}` prints an integer, and the parse back.
- `Text`: prefix tests and splitting at the first separator.
- `Forms`: the submit and load pattern every form repeats.

Field names are the camel-case forms of the JSON keys (`work_exp_id` is `workExpId`).
`RequestOptions.verb` is the `method` of a `RequestInit`.

A failed response whose body does not parse is rejected with `"Unknown error"`
(lib/api.ts:36), not with the status line, which is used only when the parsed
body has no truthy `detail`.

## Model

| member | source | states |
|---|---|---|
| Api.RequestHeaders | cv-tailor-web/lib/api.ts:20-28 | The JSON content type is always present. A caller's own `Content-Type` replaces it. `Authorization` is `Bearer <token>` exactly when the token is non-empty, and then overrides the caller's value. Without a token, the caller's headers pass through untouched. No other header is added. |
| Api.NoOptions | cv-tailor-web/lib/api.ts:148 | A call without options and without a token, as every `getAll` makes, sends exactly the JSON content type and no Authorization header. |
| Api.BuildRequest | cv-tailor-web/lib/api.ts:8-33 | The URL is the configured base URL, or `http://localhost:8000` when none is set, followed by the endpoint, verbatim. Method and body pass through. |
| Api.BearerRoundTrip | cv-tailor-web/lib/api.ts:26-28 | The Authorization value carries the token unchanged after the `Bearer ` scheme (section 2.1 of RFC 6750): reading it back gives the token. |
| Api.TranslateResponse | cv-tailor-web/lib/api.ts:35-40 | An ok response with a parsed body resolves to that body and never rejects. A failed response always rejects with one Error. Its message is the truthy `detail`, else `HTTP {status}: {statusText}`. An unparseable body gives "Unknown error". A `null` body gives the TypeError that reading `.detail` throws. |
| Api.FetchApi | cv-tailor-web/lib/api.ts:13-41 | One call sends the built request. A transport failure is propagated unchanged. Otherwise the call settles as the response translates. |
| Api.StatusLineRoundTrip | cv-tailor-web/lib/api.ts:37 | The fallback message determines the status and the status text: they can be parsed back out of it. |
| Api.UnknownErrorIsNotAStatusLine | cv-tailor-web/lib/api.ts:36-37 | The message for an unparseable error body is never a status line, whatever the status. |
| Api.ListEndpoint | cv-tailor-web/lib/api.ts:147-148 | Every `getAll` path starts with `/{resource}/?skip=`. With no arguments it is exactly `/{resource}/?skip=0&limit=100`. The other five `getAll`s (lines 166-167, 185-186, 204-205, 223-224, 242-243) use the same template. |
| Api.ListEndpointRoundTrip | cv-tailor-web/lib/api.ts:147-148 | Resource, skip and limit, with skip defaulting to 0 and limit to 100, can be parsed back out of the query string. |
| Api.ListEndpointInjective | cv-tailor-web/lib/api.ts:242-243 | Two different (resource, skip, limit) queries never produce the same path. |
| Decimal.NatToText | cv-tailor-web/lib/api.ts:148 | The text a template literal prints for a natural number below 10^21 is a non-empty digit string with no leading zero, and is "0" only for zero. |
| Decimal.IntTextRoundTrip | cv-tailor-web/lib/api.ts:148 | Parsing the printed text of any integer, negative ones included, gives the integer back. |
| Decimal.ParseIntExact | cv-tailor-web/lib/api.ts:148 | A text that parses as an integer is exactly that integer's printed text, so printing is one-to-one. |
| Decimal.NatToTextOfTextValue | cv-tailor-web/components/profile/SkillSelector.tsx:94 | For a canonical digit string, printing the value that `parseInt` reads gives back the same string. |
| Js.Trim | cv-tailor-web/app/profile/create/page.tsx:22 | `trim()` leaves a string that is empty exactly when the input was all whitespace or line terminators. Otherwise the result neither starts nor ends with one. |
| Js.TrimIsInfix | cv-tailor-web/app/profile/create/page.tsx:22 | `trim()` keeps one contiguous run of the input and drops only trimmable characters on either side of it. |
| Js.TrimIdempotent | cv-tailor-web/app/profile/create/page.tsx:22 | Trimming an already trimmed string changes nothing. |
| Js.TrimFixpoint | cv-tailor-web/app/profile/create/page.tsx:22 | A string is unchanged by `trim()` exactly when it is empty or neither end is trimmable. |
| Js.Utf16Length | cv-tailor-web/app/auth/signup/page.tsx:44 | `password.length` counts UTF-16 code units: one per character plus one more for every character outside the Basic Multilingual Plane. So it lies between the number of characters and twice that. |
| Js.MessageOr | cv-tailor-web/components/profile/WorkExperienceForm.tsx:41 | `err.message \|\| fallback` shows an Error's non-empty message, and the fallback in every other case. |
| CreateProfile.NormalizeUrl | cv-tailor-web/app/profile/create/page.tsx:20-29 | Empty input stays empty and blank input becomes empty. Other input is trimmed, keeps a case-insensitive `http://` or `https://` scheme, and gets `https://` otherwise. A non-blank result always has such a scheme and no surrounding whitespace. |
| CreateProfile.NormalizeUrlKeepsInput | cv-tailor-web/app/profile/create/page.tsx:22-28 | The trimmed input is always the tail of the result: normalisation only ever adds a scheme in front. |
| CreateProfile.NormalizeUrlIdempotent | cv-tailor-web/app/profile/create/page.tsx:20-29 | Normalising twice is the same as normalising once. |
| CreateProfile.NormalizedData | cv-tailor-web/app/profile/create/page.tsx:38-42 | Only `linkedin` and `github` are normalised, with a missing value read as the empty string. Name, email and phone pass through unchanged. |
| CreateProfile.EmptyDraft | cv-tailor-web/app/profile/create/page.tsx:12-18 | Every field starts empty, and normalising the untouched form leaves it as it is: no URL is invented. |
| CreateProfile.NormalizedDataIdempotent | cv-tailor-web/app/profile/create/page.tsx:38-42 | Normalising an already normalised payload changes nothing. |
| CreateProfile.SubmitProfile | cv-tailor-web/app/profile/create/page.tsx:31-51 | The normalised payload is sent. Success navigates to `/candidates/{id}` and leaves `loading` set. Failure shows an Error's own message, even an empty one, or "Failed to create profile" for any other thrown value, and clears `loading`. |
| Signup.EmptyForm | cv-tailor-web/app/auth/signup/page.tsx:14-23 | Every input starts empty. Submitting the untouched form shows the length message, since the two empty passwords match. |
| Signup.HandleChange | cv-tailor-web/app/auth/signup/page.tsx:27-32 | The named field takes the new value and every other field keeps its value. |
| Signup.Validate | cv-tailor-web/app/auth/signup/page.tsx:39-47 | "Passwords do not match" exactly when password and confirmation differ, whatever the length. "Password must be at least 8 characters" exactly when they match and are shorter than 8. Validation passes exactly when they match and are 8 or longer. |
| Js.BlankRoundTrip | cv-tailor-web/app/auth/signup/page.tsx:60-62 | Turning an empty field into `undefined` and reading it back with `|| ""` gives the field's text again. |
| Js.AbsentRoundTrip | cv-tailor-web/app/profile/create/page.tsx:40-41 | Reading an optional value with `|| ''` and turning empty back into absent restores the value exactly when it was not the empty string. |
| Signup.Payload | cv-tailor-web/app/auth/signup/page.tsx:56-63 | Full name, email and password are copied verbatim. Phone, LinkedIn and GitHub are absent exactly when empty, and otherwise carried unchanged. |
| Signup.PayloadIgnoresConfirmation | cv-tailor-web/app/auth/signup/page.tsx:56-63 | The confirmation field never reaches the payload: changing it leaves the payload unchanged. |
| Signup.RegistrationError | cv-tailor-web/app/auth/signup/page.tsx:53-69 | A registration throws exactly when the response is not ok, and what it throws is always an Error. A parsed object body gives its truthy `detail`, else "Registration failed". A body that does not parse gives the parser's message, because `response.json()` is not caught here. A `null` body gives the TypeError of reading `.detail`. A transport failure is rethrown as it is. |
| Signup.HandleSubmit | cv-tailor-web/app/auth/signup/page.tsx:34-90 | A validation failure shows its message and sends no request and no sign-in. Otherwise the payload is registered and `loading` ends cleared. A failure shows `err.message` or the generic message, with no sign-in. A success clears the error and navigates to `/` or to the sign-in page, depending on sign-in. |
| Signup.RegistrationMessageShown | cv-tailor-web/app/auth/signup/page.tsx:66-86 | A failed registration whose body has a string `detail` shows that detail when it is non-empty and "Registration failed" when it is empty. |
| ProfileBuilder.ReplaceById | cv-tailor-web/app/profile/builder/page.tsx:90 | The length is kept. Exactly the entries whose id equals the updated entry's id become the updated entry. Every other entry is unchanged. |
| ProfileBuilder.RemoveById | cv-tailor-web/app/profile/builder/page.tsx:98 | No entry with the id survives, every entry with another id survives, and nothing new appears. |
| ProfileBuilder.RemoveByIdConcat | cv-tailor-web/app/profile/builder/page.tsx:98 | Filtering keeps the relative order: filtering a concatenation is the concatenation of the filtered parts. |
| ProfileBuilder.RemoveAbsentId | cv-tailor-web/app/profile/builder/page.tsx:98 | Deleting an id that no entry carries leaves the list exactly as it was. |
| ProfileBuilder.RemoveByIdCount | cv-tailor-web/app/profile/builder/page.tsx:98 | The list shrinks by exactly the number of entries carrying the id. |
| ProfileBuilder.ReplaceByIdIdempotent | cv-tailor-web/app/profile/builder/page.tsx:90 | Applying the same update twice gives the list that applying it once gives. |
| ProfileBuilder.RemoveAfterReplace | cv-tailor-web/app/profile/builder/page.tsx:90-98 | Deleting an id after updating that entry gives the same list as deleting it straight away. |
| ProfileBuilder.InitialBuilder | cv-tailor-web/app/profile/builder/page.tsx:31-46 | The page starts loading, with no error, every tab count at 0, every form closed and no editing target. |
| ProfileBuilder.GetToken | cv-tailor-web/app/profile/builder/page.tsx:56 | The token is the session's access token when there is one, else the empty string. |
| ProfileBuilder.TokenAuthorizesCall | cv-tailor-web/app/profile/builder/page.tsx:56 | If the page's API wrappers hand the token to `fetchAPI`, a builder call carries an Authorization header exactly when the session token is non-empty, and the header then carries that token. |
| ProfileBuilder.FormatDate | cv-tailor-web/app/profile/builder/page.tsx:140-142 | "Present" exactly for a missing or empty date. Any other date is handed to the locale formatter unchanged. |
| ProfileBuilder.LoadAllData | cv-tailor-web/app/profile/builder/page.tsx:58-78 | On success all four lists are replaced and the error is cleared. On failure no list changes and `err.message` or "Failed to load profile data" is shown. Loading ends either way. The forms, their flags and the editing target never change. |
| ProfileBuilder.HandleAddWorkExp | cv-tailor-web/app/profile/builder/page.tsx:81-85 | The page passes the session token to the create call. The created entry is appended: the length grows by one and earlier entries keep their order. The form closes and nothing else changes. A rejected call leaves the state alone and rethrows to the form. |
| ProfileBuilder.HandleUpdateWorkExp | cv-tailor-web/app/profile/builder/page.tsx:87-93 | With no editing target nothing is called and nothing changes. Otherwise the target's id is sent. On success the list is replaced by id with the returned entry, and the editing target and the form are cleared. On failure the state is unchanged and the error is rethrown. |
| ProfileBuilder.StartEditing | cv-tailor-web/app/profile/builder/page.tsx:254-257 | The edit button makes the entry the editing target and opens the form. Nothing else changes. |
| ProfileBuilder.CancelWorkExpForm | cv-tailor-web/app/profile/builder/page.tsx:217-220 | Cancel closes the form and drops the editing target. Nothing else changes. |
| ProfileBuilder.HandleDeleteWorkExp | cv-tailor-web/app/profile/builder/page.tsx:95-99 | A declined confirmation makes no call and changes nothing. A confirmed, successful delete filters the id out and raises nothing. A rejected delete changes nothing and rethrows. Only the work-experience list can change. |
| ProfileBuilder.HandleAddSkill | cv-tailor-web/app/profile/builder/page.tsx:102-106 | The created skill is appended at the end and the skill form closes. A rejection leaves the state unchanged and is rethrown. |
| ProfileBuilder.HandleDeleteSkill | cv-tailor-web/app/profile/builder/page.tsx:108-112 | Without confirmation there is no call and no change. A confirmed, successful delete filters the skill id out of the skill list only and raises nothing. A rejected delete changes nothing and rethrows. |
| ProfileBuilder.HandleAddCert | cv-tailor-web/app/profile/builder/page.tsx:115-119 | The created certification is appended at the end and the certification form closes. A rejection leaves the state unchanged and is rethrown. |
| ProfileBuilder.HandleDeleteCert | cv-tailor-web/app/profile/builder/page.tsx:121-125 | Without confirmation there is no call and no change. A confirmed, successful delete filters the certification id out of the certification list only and raises nothing. A rejected delete changes nothing and rethrows. |
| ProfileBuilder.HandleAddProject | cv-tailor-web/app/profile/builder/page.tsx:128-132 | The created project is appended at the end and the project form closes. A rejection leaves the state unchanged and is rethrown. |
| ProfileBuilder.HandleDeleteProject | cv-tailor-web/app/profile/builder/page.tsx:134-138 | Without confirmation there is no call and no change. A confirmed, successful delete filters the project id out of the project list only and raises nothing. A rejected delete changes nothing and rethrows. |
| ProfileBuilder.AddSkillCounts | cv-tailor-web/app/profile/builder/page.tsx:172-175 | A successful skill add raises the Skills badge by one and leaves the other three badges alone. |
| ProfileBuilder.DeleteProjectCounts | cv-tailor-web/app/profile/builder/page.tsx:172-175 | A confirmed, successful project delete lowers the Projects badge by the number of entries with that id. |
| WorkExperienceForm.InitialData | cv-tailor-web/components/profile/WorkExperienceForm.tsx:13-20 | Each of the six fields equals the existing entry's value, or `""` when it is absent or there is no entry. |
| WorkExperienceForm.SetField | cv-tailor-web/components/profile/WorkExperienceForm.tsx:63-127 | Each input changes its own field and no other. |
| WorkExperienceForm.CleanedData | cv-tailor-web/components/profile/WorkExperienceForm.tsx:31-38 | Company and role are copied verbatim. Location, details and both dates are absent exactly when empty, and preserved otherwise. |
| WorkExperienceForm.EditRoundTrip | cv-tailor-web/components/profile/WorkExperienceForm.tsx:13-38 | Reopening a saved entry for editing shows exactly the form that was saved. |
| WorkExperienceForm.ResaveRoundTrip | cv-tailor-web/components/profile/WorkExperienceForm.tsx:13-38 | Saving an unchanged entry sends it back as it was. An optional field changes only if it was present but empty, in which case it becomes absent. |
| WorkExperienceForm.HandleSubmit | cv-tailor-web/components/profile/WorkExperienceForm.tsx:24-45 | The cleaned payload is submitted. `loading` is set and the error cleared while it is awaited. `loading` is cleared after, whatever the outcome. A failure shows `err.message` or "Failed to save work experience". |
| SkillSelector.Initial | cv-tailor-web/components/profile/SkillSelector.tsx:13-21 | No skill is chosen, level and years are absent, and the catalogue is loading. |
| SkillSelector.LoadSkills | cv-tailor-web/components/profile/SkillSelector.tsx:27-36 | The catalogue loading flag ends false either way. Success installs the list. Failure shows "Failed to load skills" and changes neither the submit `loading` flag nor the form data. |
| SkillSelector.SelectSkill | cv-tailor-web/components/profile/SkillSelector.tsx:75 | Changing the skill leaves level and years untouched. |
| SkillSelector.ChooseLevel | cv-tailor-web/components/profile/SkillSelector.tsx:94-102 | `""` makes the level absent. Any other offered option gives a level in 1..5 whose printed form is the option. Skill and years are untouched. |
| SkillSelector.LevelRoundTrip | cv-tailor-web/components/profile/SkillSelector.tsx:93-94 | After choosing an option, the select shows that same option. |
| SkillSelector.HandleSubmit | cv-tailor-web/components/profile/SkillSelector.tsx:38-55 | With no skill chosen it sets "Please select a skill" and never submits. Otherwise the form data is submitted unchanged, with the error cleared and loading set while it is awaited. A failure shows `err.message` or "Failed to add skill". |
| CertificationForm.Initial | cv-tailor-web/components/profile/CertificationForm.tsx:13-22 | All four fields are `""`, and the catalogue is empty and loading. |
| CertificationForm.LoadCertifications | cv-tailor-web/components/profile/CertificationForm.tsx:28-37 | The catalogue loading flag ends false either way. Failure shows "Failed to load certifications" and changes neither the submit `loading` flag nor the items. The form data is untouched. |
| CertificationForm.SetField | cv-tailor-web/components/profile/CertificationForm.tsx:76-121 | Each input updates its own field and no other. |
| CertificationForm.HandleSubmit | cv-tailor-web/components/profile/CertificationForm.tsx:39-56 | With no certification chosen it sets "Please select a certification" and never submits. Otherwise the form data goes out exactly as typed, empty strings included. A failure shows `err.message` or "Failed to add certification". |
| CertificationForm.OnlyCertIdGuards | cv-tailor-web/components/profile/CertificationForm.tsx:41-50 | Only the certification choice decides whether anything is sent: editing another field never changes that. |
| ProjectForm.Initial | cv-tailor-web/components/profile/ProjectForm.tsx:13-22 | All fields are `""`, no project is selected, and the catalogue is empty and loading. |
| ProjectForm.LoadProjects | cv-tailor-web/components/profile/ProjectForm.tsx:28-37 | The catalogue loading flag ends false either way. Failure shows "Failed to load projects" and changes neither the submit `loading` flag nor the items. The selection and the data are untouched. |
| ProjectForm.FindFirst | cv-tailor-web/components/profile/ProjectForm.tsx:41 | `find` returns the first match: it matches, and no earlier entry does. None means no entry matches. |
| ProjectForm.Lookup | cv-tailor-web/components/profile/ProjectForm.tsx:41 | `find` gives the entry at the first matching position, and nothing exactly when no entry matches. |
| ProjectForm.HandleProjectSelectAsWritten | cv-tailor-web/components/profile/ProjectForm.tsx:39-43 | `project_id` takes the chosen value and the dates are unchanged. The selected project is the first in catalogue order whose id strictly equals the chosen string: no earlier entry matches. None is selected only when no entry matches. |
| ProjectForm.AsWrittenNeverSelectsNumericIds | cv-tailor-web/components/profile/ProjectForm.tsx:41 | When project ids are numbers, as lib/api.ts declares, no choice ever selects a project. |
| ProjectForm.AsWrittenMissesPickedProject | cv-tailor-web/components/profile/ProjectForm.tsx:41-42 | A concrete case: picking the option "7" for project 7 selects nothing as written, but selects project 7 under the corrected comparison. |
| ProjectForm.HandleProjectSelect | cv-tailor-web/components/profile/ProjectForm.tsx:39-43 | The corrected lookup compares against the option text. The selected project is the first in catalogue order whose option shows the chosen value: no earlier entry does. None is selected only when no option does. |
| ProjectForm.SelectsPickedProject | cv-tailor-web/components/profile/ProjectForm.tsx:86-88 | When the option texts are distinct, picking a project's option selects exactly that project. |
| ProjectForm.AgreeOnStringIds | cv-tailor-web/components/profile/ProjectForm.tsx:41 | With string ids the written and the corrected lookup behave identically. |
| ProjectForm.SetStartDate | cv-tailor-web/components/profile/ProjectForm.tsx:122 | Changing the start date leaves the end date, `project_id`, the selected project, the catalogue and the status unchanged. |
| ProjectForm.SetEndDate | cv-tailor-web/components/profile/ProjectForm.tsx:133 | Changing the end date leaves the start date, `project_id`, the selected project, the catalogue and the status unchanged. |
| ProjectForm.HandleSubmit | cv-tailor-web/components/profile/ProjectForm.tsx:45-62 | With no project chosen it sets "Please select a project" and never submits. Otherwise the form data is submitted unchanged. A failure shows `err.message` or "Failed to add project". |
| Theme.Initial | cv-tailor-web/components/ThemeProvider.tsx:15-16 | Before mounting, the theme is "light". |
| Theme.Mount | cv-tailor-web/components/ThemeProvider.tsx:19-40 | A non-empty saved value becomes the theme unvalidated. Otherwise the theme is "dark" exactly when the system prefers dark. The class matches the theme and nothing is persisted. |
| Theme.Toggle | cv-tailor-web/components/ThemeProvider.tsx:42-60 | "light" becomes "dark" and every other value becomes "light". The new theme is persisted, and the dark class is present exactly when it is "dark". |
| Theme.ToggleNormalises | cv-tailor-web/components/ThemeProvider.tsx:43 | After any toggle the theme is "light" or "dark", whatever was saved. |
| Theme.ToggleTwice | cv-tailor-web/components/ThemeProvider.tsx:43-46 | Two toggles from "light" or "dark" restore the original theme and persist it. |
| Theme.ToggleTwiceLosesUnknownTheme | cv-tailor-web/components/ThemeProvider.tsx:20-22 | An unvalidated saved theme such as "blue" is not restored by two toggles: it ends as "dark". |
| Theme.ToggleTimesConsistent | cv-tailor-web/components/ThemeProvider.tsx:19-60 | After mounting and any number of toggles, the dark class agrees with the theme. |
| Theme.UseTheme | cv-tailor-web/components/ThemeProvider.tsx:69-75 | Inside a provider it returns the provider's state. Outside one it throws "useTheme must be used within a ThemeProvider". |

## Left out

- Network I/O: `fetch`, `response.json()` and `signIn` are not performed. Their results are inputs (`Api.Exchange`, `Js.Outcome`, the `signInOk` flag). `router.push` and `router.refresh` become a returned navigation.
- Bodies are not serialised: `JSON.stringify` is not modelled, and payloads are carried as records.
- Header objects: only plain-object caller headers are modelled, with names matched exactly as object keys. A `Headers` instance, whose entries the spread would ignore, is not modelled. Neither is an array of pairs, which the spread turns into numbered keys (`"0"`, `"1"`, …) that `fetch` then sends as headers. Neither is the case-insensitive merge `fetch` applies afterwards.
- A `detail` that is not a string is abstracted as its truthiness plus the text `String(detail)` would give.
- JavaScript numbers are integers here: NaN, fractional `skip`/`limit` values and fractional ids are not modelled.
- Decimal.NatToText: JavaScript prints numbers from 10^21 up in exponent form (`"1e+21"`), and integers above 2^53 are not exact. The model prints every integer as plain digits, so its contract holds for the source only below those bounds.
- Api.ListEndpointRoundTrip: ranges over unbounded integers; for a `skip` or `limit` of 10^21 or more the source prints exponent form, and the round trip is promised only below that.
- Api.ListEndpointInjective: likewise holds for the source only for values that are exact JavaScript integers below 10^21.
- The `getById` and `create` endpoint templates and the `candidateAPI` methods of lib/api.ts are not modelled: they are fixed paths, or templates that print an id into a fixed path (lib/api.ts:121, 152, 171, 190, 209, 228, 247), passed to `fetchAPI`, with no decision of their own.
- The builder's API wrappers are not defined in lib/api.ts: `workExperienceAPI.getMy`, `update` and `delete`, `candidateSkillsAPI`, `candidateCertificationsAPI` and `candidateProjectsAPI` (app/profile/builder/page.tsx:64-67, 82, 89, 97, 103, 110, 116, 123, 129, 136). The model takes each as one call that sends the page's token, and takes its settlement as an input.
- ProfileBuilder.TokenAuthorizesCall: assumes those unseen wrappers pass the token on to `fetchAPI`. The `workExperienceAPI.create` that lib/api.ts:193-198 does define takes no token and calls `fetchAPI` without one, so with that version the page's token is dropped.
- `candidateAPI.create`, `candidateSkillsAPI` and the `Candidate*Create` types are not defined in lib/api.ts. They are given minimal records (`CreateProfile.Candidate`, `Api.CandidateSkillCreate`, …) shaped by how the pages use them.
- WorkExperienceForm.InitialData: the form seeds its data from the entry only when it mounts (components/profile/WorkExperienceForm.tsx:13-20). The builder renders it without a `key` (app/profile/builder/page.tsx:214-221). So pressing Edit on another entry while the form is open keeps the first entry's values, and `handleUpdateWorkExp` would then send them under the new target's id. The model always takes the form data as seeded from the current target. Switching the target of an open form is not modelled.
- The create-profile page's `handleChange` is not modelled separately: it has the shape of `Signup.HandleChange`.
- Thrown values other than Error instances are one abstract case, `OtherValue`. `OtherValue` has no truthy `message`, so `err.message || fallback` shows the fallback. A thrown plain object with a truthy `message` (`{message: "x"}`) would show that message instead, and that case is not modelled. A thrown `null` or `undefined` would make `err.message` itself throw, and that is not modelled either.
- Signup.HandleSubmit: the interval during which `loading` is true is not represented, only the state after the handler. Sign-in itself throwing is not modelled.
- `formatDate`'s locale rendering (`toLocaleDateString`) is not modelled. The label keeps the raw date instead.
- `years_experience` parsing with `parseFloat` is floating point and is not modelled. The value is only carried.
- Overlapping handler runs: each builder handler is one atomic step from the state it starts in. In the page, a handler sets the list it closed over at render time (`setSkills(skills.filter(…))`, app/profile/builder/page.tsx:83, 90, 98, 104, 111, 117, 124, 130, 137). So two runs that settle before a re-render overwrite each other, and an entry the first one deleted can come back. Theme.Toggle is likewise one step from the theme it starts in. In the provider, `toggleTheme` reads the `theme` it captured at render time (components/ThemeProvider.tsx:43), so two toggles before a re-render both go to the same theme. The model does not represent either.
- `loadAllData` awaits four loads with `Promise.all`. They are taken as one step that either yields all four lists or fails.
- `window.confirm`, `localStorage`, `matchMedia` and the root element's class list are inputs or state fields. `console.log` and the forced reflow are dropped.
- JSX rendering is left out, including disabled buttons and the `status` redirect effect of the builder page.
- lib/auth.ts, middleware.ts, app/page.tsx, app/profile/page.tsx and app/candidates/[id]/page.tsx are not part of this model.
- No debounce, search-as-you-type or stale-response logic exists in this code, so none is modelled.

## Findings

| source | as written | input that shows it | evidently intended | confidence | as-written member | corrected member |
|---|---|---|---|---|---|---|
| cv-tailor-web/components/profile/ProjectForm.tsx:41 | `projects.find(p => p.project_id === projectId)` compares a project id against the select's string value with strict equality. lib/api.ts:86 declares `project_id` a number. | A catalogue `[{project_id: 7, name: "Resume tailor"}]` and the user picks the option `"7"`: `7 === "7"` is false, so no project is selected and its details never show. | Select the project whose option was picked, by comparing `String(p.project_id)` with the chosen value. | medium: depends on the backend sending numeric ids; not executed | ProjectForm.HandleProjectSelectAsWritten (ProjectForm.AsWrittenNeverSelectsNumericIds, ProjectForm.AsWrittenMissesPickedProject) | ProjectForm.HandleProjectSelect (ProjectForm.SelectsPickedProject) |

=== FILE: api.dfy ===
/** The request client of lib/api.ts: how `fetchAPI` builds the URL and the
    header object, how it turns a response into a value or a thrown Error, the
    `getAll` query strings, and the record types the pages exchange with it. */
module Api {
  import opened Wrappers
  import opened Js
  import opened Decimal
  import opened Text

  // ---------------------------------------------------------------- base URL

  const DefaultBaseUrl: string := "http://localhost:8000"

  /** `process.env.NEXT_PUBLIC_API_URL || 'http://localhost:8000'`. */
  function BaseUrl(configured: Option<string>): string {
    if configured.Some? && configured.value != "" then configured.value else DefaultBaseUrl
  }

  // ---------------------------------------------------------------- headers

  const ContentType: string := "Content-Type"
  const Authorization: string := "Authorization"
  const JsonMediaType: string := "application/json"

  /** The Authorization value for a bearer token: the scheme name, one space,
      then the token (section 2.1 of RFC 6750). */
  function BearerCredentials(token: string): string {
    "Bearer " + token
  }

  /** Reads the token back out of an Authorization value. */
  function BearerToken(value: string): Option<string> {
    if StartsWith(value, "Bearer ") then Some(value[7..]) else None
  }

  lemma BearerRoundTrip(token: string)
    ensures BearerToken(BearerCredentials(token)) == Some(token)
  {
    assert BearerCredentials(token)[..7] == "Bearer ";
  }

  /** `if (token)`: only a present, non-empty token is sent. */
  predicate HasToken(token: Option<string>) {
    token.Some? && token.value != ""
  }

  /** The header object of `fetchAPI`: a JSON content type that the caller's
      own headers may override, then the bearer credentials when there is a
      token. Keys are compared exactly, as properties of a plain object are. */
  function RequestHeaders(callerHeaders: map<string, string>, token: Option<string>): (h: map<string, string>)
    ensures h.Keys == callerHeaders.Keys + {ContentType} + (if HasToken(token) then {Authorization} else {})
    ensures ContentType in callerHeaders ==> h[ContentType] == callerHeaders[ContentType]
    ensures ContentType !in callerHeaders ==> h[ContentType] == JsonMediaType
    ensures HasToken(token) ==> h[Authorization] == BearerCredentials(token.value)
    ensures !HasToken(token) ==> (Authorization in h <==> Authorization in callerHeaders)
    ensures forall k :: k in callerHeaders && (k != Authorization || !HasToken(token)) ==> h[k] == callerHeaders[k]
  {
    var merged := map[ContentType := JsonMediaType] + callerHeaders;
    if HasToken(token) then merged[Authorization := BearerCredentials(token.value)] else merged
  }

  // ---------------------------------------------------------------- requests

  /** The `RequestInit` a caller passes (`verb` is its `method`); absent
      headers are an empty map. */
  datatype RequestOptions = RequestOptions(verb: Option<string>, body: Option<string>, headers: map<string, string>)

  /** A call without `options`, as every `getAll` makes: without a token it
      sends exactly the JSON content type and no Authorization header. */
  function NoOptions(): (o: RequestOptions)
    ensures o.verb.None? && o.body.None?
    ensures RequestHeaders(o.headers, None) == map[ContentType := JsonMediaType]
  {
    RequestOptions(None, None, map[])
  }

  /** What `fetch` is called with. */
  datatype Request = Request(url: string, verb: Option<string>, body: Option<string>, headers: map<string, string>)

  /** The first half of `fetchAPI`: the URL is the base URL followed by the
      endpoint; method and body pass through; headers as RequestHeaders. */
  function BuildRequest(configured: Option<string>, endpoint: string, options: RequestOptions, token: Option<string>): (r: Request)
    ensures StartsWith(r.url, BaseUrl(configured)) && r.url[|BaseUrl(configured)|..] == endpoint
    ensures configured.None? ==> StartsWith(r.url, DefaultBaseUrl)
    ensures r.verb == options.verb && r.body == options.body
    ensures r.headers == RequestHeaders(options.headers, token)
  {
    var base := BaseUrl(configured);
    var r := Request(base + endpoint, options.verb, options.body, RequestHeaders(options.headers, token));
    assert r.url[..|base|] == base;
    r
  }

  // ---------------------------------------------------------------- responses

  /** The `detail` property of a parsed body: missing, a string, or another
      JSON value (a FastAPI validation list, say) with its truthiness and the
      text `String(detail)` gives. */
  datatype Detail = NoDetail | StringDetail(text: string) | OtherDetail(truthy: bool, rendered: string)

  predicate DetailTruthy(d: Detail) {
    match d
    case NoDetail => false
    case StringDetail(t) => t != ""
    case OtherDetail(truthy, _) => truthy
  }

  /** The message `new Error(detail)` carries. */
  function DetailMessage(d: Detail): string {
    match d
    case NoDetail => ""
    case StringDetail(t) => t
    case OtherDetail(_, rendered) => rendered
  }

  /** A parsed JSON body: `null`, or any other value, of which only its
      `detail` property matters here. */
  datatype Json = JsonNull | JsonValue(detail: Detail)

  /** The outcome of `response.json()`; a failed parse carries the parser's message. */
  datatype Body = Parsed(json: Json) | Unparseable(parserMessage: string)

  datatype Response = Response(ok: bool, status: int, statusText: string, body: Body)

  /** What `await fetch(...)` gives: a response, or the transport's own error. */
  datatype Exchange = Received(response: Response) | TransportFailure(message: string)

  const UnknownError: string := "Unknown error"

  /** What reading `.detail` of `null` throws (V8's wording). */
  const NullDetailMessage: string := "Cannot read properties of null (reading 'detail')"

  /** The fallback message `HTTP {status}: {statusText}`. */
  function StatusLine(status: int, statusText: string): string {
    "HTTP " + IntToText(status) + ": " + statusText
  }

  /** Recovers status and status text from a status line. */
  function ParseStatusLine(m: string): Option<(int, string)> {
    if !StartsWith(m, "HTTP ") then None
    else
      match SplitAtFirst(m[5..], ':')
      case None => None
      case Some(parts) =>
        if parts.1 == [] || parts.1[0] != ' ' then None
        else
          match ParseInt(parts.0)
          case None => None
          case Some(status) => Some((status, parts.1[1..]))
  }

  lemma StatusLineRoundTrip(status: int, statusText: string)
    ensures ParseStatusLine(StatusLine(status, statusText)) == Some((status, statusText))
  {
    var digits := IntToText(status);
    var m := StatusLine(status, statusText);
    assert m[..5] == "HTTP ";
    assert m[5..] == digits + [':'] + (" " + statusText);
    assert ':' !in digits by {
      forall k | 0 <= k < |digits|
        ensures digits[k] != ':'
      {
      }
    }
    SplitAtFirstOfJoin(digits, ':', " " + statusText);
    IntTextRoundTrip(status);
    assert (" " + statusText)[1..] == statusText;
  }

  /** The translated failure is never the status line when the body did not parse. */
  lemma UnknownErrorIsNotAStatusLine(status: int, statusText: string)
    ensures UnknownError != StatusLine(status, statusText)
  {
    assert StatusLine(status, statusText)[0] == 'H';
  }

  /** The second half of `fetchAPI`. An ok response resolves to its parsed
      body. A failed one rejects with a single Error whose message is the
      body's truthy `detail`, else the status line; a body that does not parse
      is replaced by `{detail: 'Unknown error'}` first. */
  function TranslateResponse(response: Response): (r: Outcome<Json>)
    ensures response.ok && response.body.Parsed? ==> r == Resolved(response.body.json)
    ensures response.ok && response.body.Unparseable? ==> r == Rejected(ErrorObject(response.body.parserMessage))
    ensures !response.ok ==> r.Rejected? && r.error.ErrorObject?
    ensures !response.ok && response.body.Unparseable? ==> r.error.message == UnknownError
    ensures !response.ok && response.body == Parsed(JsonNull) ==> r.error.message == NullDetailMessage
    ensures !response.ok && response.body.Parsed? && response.body.json.JsonValue? ==>
      var d := response.body.json.detail;
      r.error.message == if DetailTruthy(d) then DetailMessage(d) else StatusLine(response.status, response.statusText)
  {
    if response.ok then
      match response.body
      case Parsed(json) => Resolved(json)
      case Unparseable(m) => Rejected(ErrorObject(m))
    else
      var error := match response.body
        case Unparseable(_) => JsonValue(StringDetail(UnknownError))
        case Parsed(json) => json;
      match error
      case JsonNull => Rejected(ErrorObject(NullDetailMessage))
      case JsonValue(d) =>
        Rejected(ErrorObject(if DetailTruthy(d) then DetailMessage(d) else StatusLine(response.status, response.statusText)))
  }

  /** One call of `fetchAPI`: the request it sends and how its promise settles.
      A transport failure is propagated unchanged. */
  datatype Call = Call(request: Request, outcome: Outcome<Json>)

  function FetchApi(configured: Option<string>, endpoint: string, options: RequestOptions, token: Option<string>, exchange: Exchange): (c: Call)
    ensures c.request == BuildRequest(configured, endpoint, options, token)
    ensures exchange.TransportFailure? ==> c.outcome == Rejected(ErrorObject(exchange.message))
    ensures exchange.Received? ==> c.outcome == TranslateResponse(exchange.response)
    ensures exchange.Received? && exchange.response.ok && exchange.response.body.Parsed? ==> c.outcome.Resolved?
  {
    var request := BuildRequest(configured, endpoint, options, token);
    match exchange
    case TransportFailure(m) => Call(request, Rejected(ErrorObject(m)))
    case Received(response) => Call(request, TranslateResponse(response))
  }

  // ---------------------------------------------------------------- list endpoints

  /** The six resources with a `getAll`. */
  datatype ListResource = Skills | Certifications | WorkExperiences | Projects | JobDescriptions | Resumes

  function ResourcePath(r: ListResource): string {
    match r
    case Skills => "skills"
    case Certifications => "certifications"
    case WorkExperiences => "work-experience"
    case Projects => "projects"
    case JobDescriptions => "job-descriptions"
    case Resumes => "resumes"
  }

  /** The resource paths differ in their first letter. */
  function ResourceByInitial(c: char): Option<ListResource> {
    match c
    case 's' => Some(Skills)
    case 'c' => Some(Certifications)
    case 'w' => Some(WorkExperiences)
    case 'p' => Some(Projects)
    case 'j' => Some(JobDescriptions)
    case 'r' => Some(Resumes)
    case _ => None
  }

  const DefaultSkip: int := 0
  const DefaultLimit: int := 100

  function ListPrefix(r: ListResource): string {
    "/" + ResourcePath(r) + "/?skip="
  }

  /** `getAll(skip = 0, limit = 100)`: `/{resource}/?skip={skip}&limit={limit}`. */
  function ListEndpoint(r: ListResource, skip: Option<int>, limit: Option<int>): (e: string)
    ensures StartsWith(e, "/" + ResourcePath(r) + "/?skip=")
    ensures skip.None? && limit.None? ==> e == "/" + ResourcePath(r) + "/?skip=0&limit=100"
  {
    ListPrefix(r) + IntToText(skip.GetOr(DefaultSkip)) + "&limit=" + IntToText(limit.GetOr(DefaultLimit))
  }

  datatype ListQuery = ListQuery(resource: ListResource, skip: int, limit: int)

  /** Reads resource, skip and limit back out of a list endpoint. */
  function ParseListEndpoint(e: string): Option<ListQuery> {
    if |e| < 2 then None
    else
      match ResourceByInitial(e[1])
      case None => None
      case Some(r) =>
        if !StartsWith(e, ListPrefix(r)) then None
        else
          match ParseQueryTail(e[|ListPrefix(r)|..])
          case None => None
          case Some(q) => Some(ListQuery(r, q.0, q.1))
  }

  /** Reads `{skip}&limit={limit}` back into its two integers. */
  function ParseQueryTail(t: string): Option<(int, int)> {
    match SplitAtFirst(t, '&')
    case None => None
    case Some(parts) =>
      if !StartsWith(parts.1, "limit=") then None
      else
        match (ParseInt(parts.0), ParseInt(parts.1[6..]))
        case (Some(skip), Some(limit)) => Some((skip, limit))
        case _ => None
  }

  lemma NoAmpersandInIntText(i: int)
    ensures '&' !in IntToText(i)
  {
    var t := IntToText(i);
    forall k | 0 <= k < |t|
      ensures t[k] != '&'
    {
    }
  }

  lemma QueryTailRoundTrip(skip: int, limit: int)
    ensures ParseQueryTail(IntToText(skip) + "&limit=" + IntToText(limit)) == Some((skip, limit))
  {
    var s := IntToText(skip);
    var l := IntToText(limit);
    assert s + "&limit=" + l == s + ['&'] + ("limit=" + l);
    NoAmpersandInIntText(skip);
    SplitAtFirstOfJoin(s, '&', "limit=" + l);
    assert ("limit=" + l)[..6] == "limit=";
    assert ("limit=" + l)[6..] == l;
    IntTextRoundTrip(skip);
    IntTextRoundTrip(limit);
  }

  /** The prefix names its resource, and what follows it is read as the query. */
  lemma ParseAfterPrefix(r: ListResource, tail: string)
    ensures ParseListEndpoint(ListPrefix(r) + tail) ==
      match ParseQueryTail(tail)
      case None => None
      case Some(q) => Some(ListQuery(r, q.0, q.1))
  {
    var p := ListPrefix(r);
    var e := p + tail;
    assert e[1] == ResourcePath(r)[0];
    assert ResourceByInitial(e[1]) == Some(r);
    assert e[..|p|] == p;
    assert e[|p|..] == tail;
  }

  /** Every list endpoint determines its resource, skip and limit. */
  lemma ListEndpointRoundTrip(r: ListResource, skip: Option<int>, limit: Option<int>)
    ensures ParseListEndpoint(ListEndpoint(r, skip, limit)) == Some(ListQuery(r, skip.GetOr(DefaultSkip), limit.GetOr(DefaultLimit)))
  {
    var tail := IntToText(skip.GetOr(DefaultSkip)) + "&limit=" + IntToText(limit.GetOr(DefaultLimit));
    assert ListEndpoint(r, skip, limit) == ListPrefix(r) + tail;
    ParseAfterPrefix(r, tail);
    QueryTailRoundTrip(skip.GetOr(DefaultSkip), limit.GetOr(DefaultLimit));
  }

  /** Different queries never share an endpoint. */
  lemma ListEndpointInjective(r1: ListResource, s1: int, l1: int, r2: ListResource, s2: int, l2: int)
    requires ListEndpoint(r1, Some(s1), Some(l1)) == ListEndpoint(r2, Some(s2), Some(l2))
    ensures r1 == r2 && s1 == s2 && l1 == l2
  {
    ListEndpointRoundTrip(r1, Some(s1), Some(l1));
    ListEndpointRoundTrip(r2, Some(s2), Some(l2));
  }

  // ---------------------------------------------------------------- records

  /** The catalogue records of lib/api.ts, reduced to the fields the forms read. */
  datatype Skill = Skill(skillId: Key, name: string)
  datatype Certification = Certification(certId: Key, name: string)
  datatype Project = Project(projectId: Key, name: string, description: Option<string>)

  /** A candidate's work experience, with the `location` and `details`
      fields the forms use. */
  datatype WorkExperience = WorkExperience(
    workExpId: Key, company: string, role: string,
    location: Option<string>, details: Option<string>,
    startDate: Option<string>, endDate: Option<string>)

  /** The association records the profile builder lists, by their ids. */
  datatype CandidateSkill = CandidateSkill(skillId: Key)
  datatype CandidateCertification = CandidateCertification(certId: Key)
  datatype CandidateProject = CandidateProject(projectId: Key)

  /** Create payloads as the forms build them. */
  datatype WorkExperienceCreate = WorkExperienceCreate(
    company: string, role: string,
    location: Option<string>, details: Option<string>,
    startDate: Option<string>, endDate: Option<string>)

  /** `years_experience` is carried, never computed: parseFloat is not modelled. */
  datatype CandidateSkillCreate = CandidateSkillCreate(skillId: string, level: Option<int>, yearsExperience: Option<real>)
  datatype CandidateCertificationCreate = CandidateCertificationCreate(certId: string, credentialId: string, issueDate: string, expiryDate: string)
  datatype CandidateProjectCreate = CandidateProjectCreate(projectId: string, startDate: string, endDate: string)
}

=== FILE: certification_form.dfy ===
/** components/profile/CertificationForm.tsx: a certification picked from the
    loaded catalogue, three free-text fields, and the guarded submit. */
module CertificationForm {
  import opened Wrappers
  import opened Js
  import opened Api
  import opened Forms

  datatype CertificationState = CertificationState(catalogue: Catalogue<Certification>, data: CandidateCertificationCreate, status: Status)

  function Initial(): (s: CertificationState)
    ensures s.data.certId == "" && s.data.credentialId == "" && s.data.issueDate == "" && s.data.expiryDate == ""
    ensures s.catalogue.loading && s.catalogue.items == [] && s.status == Idle
  {
    CertificationState(Unloaded(), CandidateCertificationCreate("", "", "", ""), Idle)
  }

  const LoadFailure: string := "Failed to load certifications"

  function LoadCertifications(s: CertificationState, result: Outcome<seq<Certification>>): (r: CertificationState)
    ensures !r.catalogue.loading && r.data == s.data
    ensures result.Resolved? ==> r.catalogue.items == result.value && r.status == s.status
    ensures result.Rejected? ==> r.status == s.status.(error := LoadFailure) && r.catalogue.items == s.catalogue.items
  {
    var loaded := Load(s.catalogue, s.status, result, LoadFailure);
    s.(catalogue := loaded.0, status := loaded.1)
  }

  datatype Field = CertId | CredentialId | IssueDate | ExpiryDate

  function FieldValue(d: CandidateCertificationCreate, k: Field): string {
    match k
    case CertId => d.certId
    case CredentialId => d.credentialId
    case IssueDate => d.issueDate
    case ExpiryDate => d.expiryDate
  }

  /** The `onChange` of each input. */
  function SetField(s: CertificationState, k: Field, value: string): (r: CertificationState)
    ensures forall k' :: FieldValue(r.data, k') == if k' == k then value else FieldValue(s.data, k')
    ensures r.catalogue == s.catalogue && r.status == s.status
  {
    var d := s.data;
    var d' := match k
      case CertId => d.(certId := value)
      case CredentialId => d.(credentialId := value)
      case IssueDate => d.(issueDate := value)
      case ExpiryDate => d.(expiryDate := value);
    s.(data := d')
  }

  const MissingCertification: string := "Please select a certification"
  const SubmitFailure: string := "Failed to add certification"

  /** `handleSubmit`: the form data goes out exactly as typed; empty optional
      strings are not removed. */
  function HandleSubmit(s: CertificationState, outcome: Outcome<()>): (r: Submission<CandidateCertificationCreate>)
    ensures s.data.certId == "" ==> r.sent.None? && r.after.error == MissingCertification && r.after.loading == s.status.loading
    ensures s.data.certId != "" ==> r.sent == Some(s.data) && r.during == Status(true, "") && !r.after.loading
    ensures s.data.certId != "" && outcome.Rejected? ==> r.after.error == MessageOr(outcome.error, SubmitFailure)
    ensures s.data.certId != "" && outcome.Resolved? ==> r.after.error == ""
  {
    GuardedSubmit(s.status, s.data.certId, MissingCertification, s.data, outcome, SubmitFailure)
  }

  /** Only the certification choice decides whether anything is sent. */
  lemma OnlyCertIdGuards(s: CertificationState, k: Field, value: string, outcome: Outcome<()>)
    requires k != CertId
    ensures HandleSubmit(SetField(s, k, value), outcome).sent.Some? <==> HandleSubmit(s, outcome).sent.Some?
  {
  }
}

=== FILE: create_profile.dfy ===
/** app/profile/create/page.tsx: URL normalisation and the profile payload
    the page submits. */
module CreateProfile {
  import opened Wrappers
  import opened Js
  import opened Forms

  /** Lower-cases ASCII letters: the only case folding `/.../i` applies to
      the letters of `https`. */
  function AsciiLower(c: char): char {
    if 'A' <= c <= 'Z' then (c as int + 32) as char else c
  }

  /** `s` starts with the lower-case `prefix`, ignoring ASCII case. */
  predicate StartsWithIgnoringCase(s: string, prefix: string) {
    |prefix| <= |s| && forall i :: 0 <= i < |prefix| ==> AsciiLower(s[i]) == prefix[i]
  }

  /** The test `/^https?:\/\//i` (section 3.1 of RFC 3986: the scheme is
      case-insensitive). */
  predicate HasHttpScheme(s: string) {
    StartsWithIgnoringCase(s, "http://") || StartsWithIgnoringCase(s, "https://")
  }

  /** `normalizeUrl`: the empty string stays as it is, blank input becomes
      empty, a trimmed URL with an http(s) scheme is kept, anything else gets
      `https://` in front. */
  function NormalizeUrl(url: string): (r: string)
    ensures url == "" ==> r == ""
    ensures IsBlank(url) ==> r == ""
    ensures !IsBlank(url) ==> HasHttpScheme(r) && !IsTrimmable(r[0]) && !IsTrimmable(r[|r| - 1])
    ensures !IsBlank(url) && HasHttpScheme(Trim(url)) ==> r == Trim(url)
    ensures !IsBlank(url) && !HasHttpScheme(Trim(url)) ==> r == "https://" + Trim(url)
  {
    if url == "" then url
    else
      var trimmed := Trim(url);
      if trimmed == "" then trimmed
      else if !HasHttpScheme(trimmed) then WithHttps(trimmed)
      else trimmed
  }

  /** `https://` in front of a trimmed text keeps both ends untrimmable and
      gives it an http(s) scheme. */
  function WithHttps(trimmed: string): (r: string)
    requires trimmed != [] && !IsTrimmable(trimmed[|trimmed| - 1])
    ensures r == "https://" + trimmed
    ensures HasHttpScheme(r) && !IsTrimmable(r[0]) && !IsTrimmable(r[|r| - 1])
  {
    var r := "https://" + trimmed;
    assert forall i :: 0 <= i < 8 ==> r[i] == "https://"[i];
    assert r[|r| - 1] == trimmed[|trimmed| - 1];
    r
  }

  /** The user's text survives normalisation: it is always the tail of the result. */
  lemma NormalizeUrlKeepsInput(url: string)
    ensures |Trim(url)| <= |NormalizeUrl(url)|
    ensures NormalizeUrl(url)[|NormalizeUrl(url)| - |Trim(url)|..] == Trim(url)
  {
    if IsBlank(url) {
      assert Trim(url) == [];
    }
  }

  lemma NormalizeUrlIdempotent(url: string)
    ensures NormalizeUrl(NormalizeUrl(url)) == NormalizeUrl(url)
  {
    var r := NormalizeUrl(url);
    if r != "" {
      TrimFixpoint(r);
      assert !IsBlank(r);
    }
  }

  /** The page's form data (a `CandidateCreate` without a password); the
      optional fields may be undefined. */
  datatype ProfileDraft = ProfileDraft(
    fullName: string, email: string,
    phone: Option<string>, linkedin: Option<string>, github: Option<string>)

  /** The form on first render. Normalising it keeps both URLs empty, so an
      untouched profile is sent without invented links. */
  function EmptyDraft(): (d: ProfileDraft)
    ensures d.fullName == "" && d.email == ""
    ensures d.phone == Some("") && d.linkedin == Some("") && d.github == Some("")
    ensures NormalizedData(d) == d
  {
    ProfileDraft("", "", Some(""), Some(""), Some(""))
  }

  /** `normalizedData`: only the two URLs are normalised, a missing one as `''`. */
  function NormalizedData(d: ProfileDraft): (r: ProfileDraft)
    ensures r.fullName == d.fullName && r.email == d.email && r.phone == d.phone
    ensures r.linkedin == Some(NormalizeUrl(AbsentToBlank(d.linkedin)))
    ensures r.github == Some(NormalizeUrl(AbsentToBlank(d.github)))
  {
    d.(linkedin := Some(NormalizeUrl(AbsentToBlank(d.linkedin))),
       github := Some(NormalizeUrl(AbsentToBlank(d.github))))
  }

  /** Submitting twice sends the same payload: normalisation is stable. */
  lemma NormalizedDataIdempotent(d: ProfileDraft)
    ensures NormalizedData(NormalizedData(d)) == NormalizedData(d)
  {
    NormalizeUrlIdempotent(AbsentToBlank(d.linkedin));
    NormalizeUrlIdempotent(AbsentToBlank(d.github));
  }

  /** The record `candidateAPI.create` resolves to. */
  datatype Candidate = Candidate(id: string)

  const CreateFailure: string := "Failed to create profile"

  /** One submit: the payload sent, the status afterwards, and where the
      router is sent. */
  datatype CreateRun = CreateRun(sent: ProfileDraft, after: Status, navigation: Option<string>)

  /** `handleSubmit`: on success the page navigates to the new candidate and
      `loading` stays set; on failure an Error's own message (even an empty
      one) is shown, any other thrown value shows the fallback. */
  function SubmitProfile(d: ProfileDraft, outcome: Outcome<Candidate>): (r: CreateRun)
    ensures r.sent == NormalizedData(d)
    ensures outcome.Resolved? ==> r.navigation == Some("/candidates/" + outcome.value.id) && r.after == Status(true, "")
    ensures outcome.Rejected? ==> r.navigation.None? && !r.after.loading
    ensures outcome.Rejected? && outcome.error.ErrorObject? ==> r.after.error == outcome.error.message
    ensures outcome.Rejected? && outcome.error.OtherValue? ==> r.after.error == CreateFailure
  {
    match outcome
    case Resolved(candidate) => CreateRun(NormalizedData(d), Status(true, ""), Some("/candidates/" + candidate.id))
    case Rejected(err) =>
      var message := match err
        case ErrorObject(m) => m
        case OtherValue => CreateFailure;
      CreateRun(NormalizedData(d), Status(false, message), None)
  }
}

=== FILE: decimal.dfy ===
/** Decimal text of integers: what a template literal `${n}` prints for an
    integral number, and the inverse parse. */
module Decimal {
  import opened Wrappers

  predicate IsDigit(c: char) {
    '0' <= c <= '9'
  }

  predicate AllDigits(s: string) {
    forall i :: 0 <= i < |s| ==> IsDigit(s[i])
  }

  /** A digit string without superfluous leading zeros. */
  predicate Canonical(s: string) {
    s != [] && AllDigits(s) && (s[0] == '0' ==> |s| == 1)
  }

  function DigitChar(d: nat): (c: char)
    requires d < 10
    ensures IsDigit(c)
  {
    ('0' as int + d) as char
  }

  function DigitValue(c: char): (d: nat)
    requires IsDigit(c)
    ensures d < 10
  {
    c as int - '0' as int
  }

  /** The decimal text of a natural number. */
  function NatToText(n: nat): (r: string)
    ensures Canonical(r)
    ensures r == "0" <==> n == 0
    decreases n
  {
    if n < 10 then [DigitChar(n)] else NatToText(n / 10) + [DigitChar(n % 10)]
  }

  /** The number a digit string denotes. */
  function TextValue(s: string): nat
    requires AllDigits(s)
    decreases |s|
  {
    if s == [] then 0 else TextValue(s[..|s| - 1]) * 10 + DigitValue(s[|s| - 1])
  }

  lemma {:induction false} TextValueOfNatToText(n: nat)
    ensures TextValue(NatToText(n)) == n
    decreases n
  {
    if n >= 10 {
      var p := NatToText(n / 10);
      TextValueOfNatToText(n / 10);
      assert NatToText(n) == p + [DigitChar(n % 10)];
      assert (p + [DigitChar(n % 10)])[..|p|] == p;
    }
  }

  lemma {:induction false} TextValuePositive(s: string)
    requires s != [] && AllDigits(s) && s[0] != '0'
    ensures TextValue(s) >= 1
    decreases |s|
  {
    if |s| > 1 {
      TextValuePositive(s[..|s| - 1]);
    }
  }

  lemma {:induction false} NatToTextOfTextValue(s: string)
    requires Canonical(s)
    ensures NatToText(TextValue(s)) == s
    decreases |s|
  {
    if |s| > 1 {
      var p := s[..|s| - 1];
      TextValuePositive(p);
      NatToTextOfTextValue(p);
      var d := DigitValue(s[|s| - 1]);
      var v := TextValue(p) * 10 + d;
      assert v / 10 == TextValue(p) && v % 10 == d;
      assert DigitChar(d) == s[|s| - 1];
      assert s == p + [s[|s| - 1]];
    }
  }

  /** The decimal text of an integer, with a leading `-` when negative. */
  function IntToText(i: int): (r: string)
    ensures r != []
    ensures forall k :: 0 <= k < |r| ==> IsDigit(r[k]) || r[k] == '-'
  {
    if i < 0 then "-" + NatToText(-i) else NatToText(i)
  }

  /** Parses exactly the texts IntToText produces. */
  function ParseInt(s: string): Option<int> {
    if |s| > 0 && s[0] == '-' then
      if Canonical(s[1..]) && s[1..] != "0" then Some(-(TextValue(s[1..]) as int)) else None
    else if Canonical(s) then Some(TextValue(s) as int)
    else None
  }

  lemma IntTextRoundTrip(i: int)
    ensures ParseInt(IntToText(i)) == Some(i)
  {
    if i < 0 {
      var t := NatToText(-i);
      assert IntToText(i)[1..] == t;
      TextValueOfNatToText(-i);
    } else {
      TextValueOfNatToText(i);
    }
  }

  lemma ParseIntExact(s: string, i: int)
    requires ParseInt(s) == Some(i)
    ensures IntToText(i) == s
  {
    if |s| > 0 && s[0] == '-' {
      NatToTextOfTextValue(s[1..]);
      assert s == "-" + s[1..];
    } else {
      NatToTextOfTextValue(s);
    }
  }
}

=== FILE: forms.dfy ===
/** The submit and load pattern every profile form repeats: set `loading`,
    clear the error, await the parent's `onSubmit`, show a failure message,
    clear `loading` in `finally`; and the one-shot catalogue load on mount. */
module Forms {
  import opened Wrappers
  import opened Js

  /** The `loading` flag and the `error` string of a form. */
  datatype Status = Status(loading: bool, error: string)

  const Idle: Status := Status(false, "")

  /** One press of a submit button: the payload handed to `onSubmit` (None
      when a guard stopped it), the status while `onSubmit` is awaited, and
      the status once the handler has returned. */
  datatype Submission<P> = Submission(sent: Option<P>, during: Status, after: Status)

  /** An unguarded `handleSubmit`. */
  function Submit<P>(payload: P, outcome: Outcome<()>, fallback: string): (r: Submission<P>)
    ensures r.sent == Some(payload)
    ensures r.during.loading && r.during.error == ""
    ensures !r.after.loading
    ensures outcome.Resolved? ==> r.after.error == ""
    ensures outcome.Rejected? ==> r.after.error == MessageOr(outcome.error, fallback)
    ensures outcome.Rejected? && fallback != "" ==> r.after.error != ""
    ensures outcome.Rejected? && outcome.error.ErrorObject? && outcome.error.message != "" ==> r.after.error == outcome.error.message
  {
    var error := match outcome
      case Resolved(_) => ""
      case Rejected(err) => MessageOr(err, fallback);
    Submission(Some(payload), Status(true, ""), Status(false, error))
  }

  /** A `handleSubmit` that first checks an item was chosen: with nothing
      chosen it only sets `missing` and never calls `onSubmit`. */
  function GuardedSubmit<P>(status: Status, chosen: string, missing: string, payload: P, outcome: Outcome<()>, fallback: string): (r: Submission<P>)
    ensures chosen == "" <==> r.sent.None?
    ensures chosen == "" ==> r.during == r.after == Status(status.loading, missing)
    ensures chosen != "" ==> r == Submit(payload, outcome, fallback)
  {
    if chosen == "" then
      Submission(None, Status(status.loading, missing), Status(status.loading, missing))
    else
      Submit(payload, outcome, fallback)
  }

  /** A catalogue fetched once on mount, and whether it is still loading. */
  datatype Catalogue<T> = Catalogue(items: seq<T>, loading: bool)

  function Unloaded<T>(): Catalogue<T> {
    Catalogue([], true)
  }

  /** The mount-time load: on success the items are replaced; on failure
      `failure` is shown and the items stay as they were; either way loading ends. */
  function Load<T>(catalogue: Catalogue<T>, status: Status, result: Outcome<seq<T>>, failure: string): (r: (Catalogue<T>, Status))
    ensures !r.0.loading
    ensures result.Resolved? ==> r.0.items == result.value && r.1 == status
    ensures result.Rejected? ==> r.0.items == catalogue.items && r.1 == status.(error := failure)
  {
    match result
    case Resolved(items) => (Catalogue(items, false), status)
    case Rejected(_) => (Catalogue(catalogue.items, false), status.(error := failure))
  }
}

=== FILE: js.dfy ===
/** The pieces of JavaScript semantics the client code leans on: truthiness of
    strings, `String.prototype.trim`, string length in UTF-16 code units, the
    values a `catch` block receives, and primitive ids compared with `===`. */
module Js {
  import opened Wrappers
  import opened Decimal

  /** `s || undefined`: the empty string becomes absent. */
  function BlankToAbsent(s: string): Option<string> {
    if s == "" then None else Some(s)
  }

  /** `o || ""`: an absent (or empty) string becomes the empty string. */
  function AbsentToBlank(o: Option<string>): string {
    o.GetOr("")
  }

  lemma BlankRoundTrip(s: string)
    ensures AbsentToBlank(BlankToAbsent(s)) == s
  {
  }

  /** Collapsing the present-but-empty case is the only information lost. */
  lemma AbsentRoundTrip(o: Option<string>)
    ensures BlankToAbsent(AbsentToBlank(o)) == o <==> o != Some("")
  {
  }

  /** `s.length`: JavaScript strings count UTF-16 code units, so a character
      outside the Basic Multilingual Plane counts twice. */
  function Utf16Length(s: string): (n: nat)
    ensures n == |s| + |AstralPositions(s)|
    ensures |s| <= n <= 2 * |s|
    ensures n == |s| <== forall i :: 0 <= i < |s| ==> s[i] as int < 0x1_0000
  {
    if s == [] then 0
    else
      var init := s[..|s| - 1];
      var last := s[|s| - 1];
      assert AstralPositions(s) == AstralPositions(init) + (if last as int >= 0x1_0000 then {|s| - 1} else {});
      Utf16Length(init) + (if last as int >= 0x1_0000 then 2 else 1)
  }

  /** The positions of `s` holding a code point outside the Basic
      Multilingual Plane, each of which takes a surrogate pair. */
  function AstralPositions(s: string): set<nat> {
    set i: nat | i < |s| && s[i] as int >= 0x1_0000
  }

  // ---------------------------------------------------------------- trim

  /** WhiteSpace and LineTerminator code points of ECMA-262, the characters
      `String.prototype.trim` removes. */
  predicate IsTrimmable(c: char) {
    c in TrimmableSingles || '\U{2000}' <= c <= '\U{200A}'
  }

  /** The trimmable code points outside the range U+2000..U+200A. */
  const TrimmableSingles: set<char> := {
    '\t', '\n', '\U{000B}', '\U{000C}', '\r', ' ', '\U{00A0}', '\U{1680}',
    '\U{2028}', '\U{2029}', '\U{202F}', '\U{205F}', '\U{3000}', '\U{FEFF}'
  }

  /** Every character is trimmable (this includes the empty string). */
  predicate IsBlank(s: string) {
    forall i :: 0 <= i < |s| ==> IsTrimmable(s[i])
  }

  function TrimStart(s: string): (r: string)
    ensures |r| <= |s| && r == s[|s| - |r|..]
    ensures r != [] ==> !IsTrimmable(r[0])
    ensures forall i :: 0 <= i < |s| - |r| ==> IsTrimmable(s[i])
    decreases |s|
  {
    if s != [] && IsTrimmable(s[0]) then TrimStart(s[1..]) else s
  }

  function TrimEnd(s: string): (r: string)
    ensures |r| <= |s| && r == s[..|r|]
    ensures r != [] ==> !IsTrimmable(r[|r| - 1])
    ensures forall i :: |r| <= i < |s| ==> IsTrimmable(s[i])
    decreases |s|
  {
    if s != [] && IsTrimmable(s[|s| - 1]) then TrimEnd(s[..|s| - 1]) else s
  }

  /** `s.trim()`. */
  function Trim(s: string): (r: string)
    ensures r != [] ==> !IsTrimmable(r[0]) && !IsTrimmable(r[|r| - 1])
    ensures r == [] <==> IsBlank(s)
  {
    TrimEnd(TrimStart(s))
  }

  /** How many leading characters `trim` drops. */
  function TrimOffset(s: string): nat {
    |s| - |TrimStart(s)|
  }

  /** Trim keeps one contiguous run of `s`, starting at TrimOffset(s), and
      drops only trimmable characters on either side of it. */
  lemma TrimIsInfix(s: string)
    ensures TrimOffset(s) + |Trim(s)| <= |s|
    ensures Trim(s) == s[TrimOffset(s)..TrimOffset(s) + |Trim(s)|]
    ensures forall i :: 0 <= i < TrimOffset(s) ==> IsTrimmable(s[i])
    ensures forall i :: TrimOffset(s) + |Trim(s)| <= i < |s| ==> IsTrimmable(s[i])
  {
    var t := TrimStart(s);
    var k := TrimOffset(s);
    assert t == s[k..];
    TrimEndTail(s, t, k);
  }

  /** What TrimEnd drops from the suffix `t` of `s` starting at `k` is trimmable in `s`. */
  lemma TrimEndTail(s: string, t: string, k: nat)
    requires k <= |s| && t == s[k..]
    ensures k + |TrimEnd(t)| <= |s|
    ensures TrimEnd(t) == s[k..k + |TrimEnd(t)|]
    ensures forall i :: k + |TrimEnd(t)| <= i < |s| ==> IsTrimmable(s[i])
  {
    var r := TrimEnd(t);
    assert r == t[..|r|];
    forall i | k + |r| <= i < |s|
      ensures IsTrimmable(s[i])
    {
      assert s[i] == t[i - k];
    }
  }

  /** A string is its own trim exactly when it is empty or neither ends is trimmable. */
  lemma TrimFixpoint(s: string)
    ensures Trim(s) == s <==> s == [] || (!IsTrimmable(s[0]) && !IsTrimmable(s[|s| - 1]))
  {
  }

  lemma TrimIdempotent(s: string)
    ensures Trim(Trim(s)) == Trim(s)
  {
    TrimFixpoint(Trim(s));
  }

  // ---------------------------------------------------------------- thrown values

  /** What a `catch` block receives: an Error instance carrying its `message`,
      or some other value without a truthy `message`. */
  datatype Thrown = ErrorObject(message: string) | OtherValue

  /** The settlement of an awaited promise. */
  datatype Outcome<+T> = Resolved(value: T) | Rejected(error: Thrown)

  /** `err.message || fallback`. */
  function MessageOr(err: Thrown, fallback: string): (m: string)
    ensures err.ErrorObject? && err.message != "" ==> m == err.message
    ensures !(err.ErrorObject? && err.message != "") ==> m == fallback
  {
    if err.ErrorObject? && err.message != "" then err.message else fallback
  }

  // ---------------------------------------------------------------- ids

  /** A record id as it travels through JSON: an integral number or a string.
      `===` on two keys is equality of this datatype. */
  datatype Key = NumberKey(n: int) | StringKey(s: string)

  /** `String(k)`: the text a key shows as the value of an `<option>`. */
  function KeyText(k: Key): string {
    match k
    case NumberKey(n) => IntToText(n)
    case StringKey(s) => s
  }
}

=== FILE: profile_builder.dfy ===
/** app/profile/builder/page.tsx: the four profile lists and the handlers
    that append to, replace in and filter them, plus the session token, the
    "Present" date label and the tab counts. */
module ProfileBuilder {
  import opened Wrappers
  import opened Js
  import opened Api

  // ---------------------------------------------------------------- list operations

  /** `list.map(e => key(e) === key(updated) ? updated : e)`. */
  function ReplaceById<T>(s: seq<T>, key: T -> Key, updated: T): (r: seq<T>)
    ensures |r| == |s|
    ensures forall i :: 0 <= i < |s| && key(s[i]) == key(updated) ==> r[i] == updated
    ensures forall i :: 0 <= i < |s| && key(s[i]) != key(updated) ==> r[i] == s[i]
  {
    seq(|s|, i requires 0 <= i < |s| => if key(s[i]) == key(updated) then updated else s[i])
  }

  /** `list.filter(e => key(e) !== id)`. */
  function RemoveById<T>(s: seq<T>, key: T -> Key, id: Key): (r: seq<T>)
    ensures |r| <= |s|
    ensures forall i :: 0 <= i < |r| ==> key(r[i]) != id
    ensures forall x :: x in r ==> x in s
    ensures forall x :: x in s && key(x) != id ==> x in r
    decreases |s|
  {
    if s == [] then []
    else (if key(s[0]) == id then [] else [s[0]]) + RemoveById(s[1..], key, id)
  }

  /** Number of elements carrying `id`. */
  function Occurrences<T>(s: seq<T>, key: T -> Key, id: Key): nat
    decreases |s|
  {
    if s == [] then 0 else (if key(s[0]) == id then 1 else 0) + Occurrences(s[1..], key, id)
  }

  /** Filtering keeps relative order: it distributes over concatenation. */
  lemma {:induction false} RemoveByIdConcat<T>(a: seq<T>, b: seq<T>, key: T -> Key, id: Key)
    ensures RemoveById(a + b, key, id) == RemoveById(a, key, id) + RemoveById(b, key, id)
    decreases |a|
  {
    if a != [] {
      var head := if key(a[0]) == id then [] else [a[0]];
      assert (a + b)[0] == a[0] && (a + b)[1..] == a[1..] + b;
      assert RemoveById(a + b, key, id) == head + RemoveById(a[1..] + b, key, id);
      RemoveByIdConcat(a[1..], b, key, id);
      assert RemoveById(a, key, id) == head + RemoveById(a[1..], key, id);
    } else {
      assert a + b == b;
    }
  }

  /** Removing an id nobody carries changes nothing. */
  lemma {:induction false} RemoveAbsentId<T>(s: seq<T>, key: T -> Key, id: Key)
    requires forall i :: 0 <= i < |s| ==> key(s[i]) != id
    ensures RemoveById(s, key, id) == s
    decreases |s|
  {
    if s != [] {
      RemoveAbsentId(s[1..], key, id);
    }
  }

  /** Exactly the elements carrying `id` are dropped. */
  lemma {:induction false} RemoveByIdCount<T>(s: seq<T>, key: T -> Key, id: Key)
    ensures |RemoveById(s, key, id)| + Occurrences(s, key, id) == |s|
    decreases |s|
  {
    if s != [] {
      RemoveByIdCount(s[1..], key, id);
    }
  }

  /** Deleting after an update is the same as deleting straight away. */
  lemma {:induction false} RemoveAfterReplace<T>(s: seq<T>, key: T -> Key, updated: T)
    ensures RemoveById(ReplaceById(s, key, updated), key, key(updated)) == RemoveById(s, key, key(updated))
    decreases |s|
  {
    if s != [] {
      var r := ReplaceById(s, key, updated);
      assert r[1..] == ReplaceById(s[1..], key, updated);
      RemoveAfterReplace(s[1..], key, updated);
    }
  }

  lemma ReplaceByIdIdempotent<T>(s: seq<T>, key: T -> Key, updated: T)
    ensures ReplaceById(ReplaceById(s, key, updated), key, updated) == ReplaceById(s, key, updated)
  {
  }

  // ---------------------------------------------------------------- keys

  function WorkExpKey(e: WorkExperience): Key { e.workExpId }
  function SkillKey(s: CandidateSkill): Key { s.skillId }
  function CertKey(c: CandidateCertification): Key { c.certId }
  function ProjectKey(p: CandidateProject): Key { p.projectId }

  // ---------------------------------------------------------------- session and labels

  /** The part of the session the page reads. */
  datatype Session = Session(accessToken: Option<string>)

  /** `session?.accessToken || ""`. */
  function GetToken(session: Option<Session>): (t: string)
    ensures session.Some? && session.value.accessToken.Some? ==> t == session.value.accessToken.value
    ensures session.None? || session.value.accessToken.None? ==> t == ""
  {
    match session
    case None => ""
    case Some(s) => AbsentToBlank(s.accessToken)
  }

  /** The page's calls authenticate exactly when the session holds a
      non-empty token; otherwise no Authorization header goes out. */
  lemma TokenAuthorizesCall(session: Option<Session>, callerHeaders: map<string, string>)
    requires Authorization !in callerHeaders
    ensures var h := RequestHeaders(callerHeaders, Some(GetToken(session)));
      (Authorization in h <==> GetToken(session) != "")
      && (Authorization in h ==> BearerToken(h[Authorization]) == Some(GetToken(session)))
  {
    BearerRoundTrip(GetToken(session));
  }

  /** What `formatDate` shows: "Present" for a missing or empty date, else
      the locale rendering of the date (not modelled). */
  datatype DateLabel = Present | LocaleDate(date: string)

  function FormatDate(date: Option<string>): (l: DateLabel)
    ensures l == Present <==> date.None? || date.value == ""
    ensures l.LocaleDate? ==> Some(l.date) == date
  {
    if date.None? || date.value == "" then Present else LocaleDate(date.value)
  }

  // ---------------------------------------------------------------- page state

  datatype Builder = Builder(
    workExperiences: seq<WorkExperience>,
    skills: seq<CandidateSkill>,
    certifications: seq<CandidateCertification>,
    projects: seq<CandidateProject>,
    showWorkExpForm: bool, showSkillForm: bool, showCertForm: bool, showProjectForm: bool,
    editingWorkExp: Option<WorkExperience>,
    loading: bool, error: string)

  /** The page's state on first render: loading, every list empty, every form closed. */
  function InitialBuilder(): (b: Builder)
    ensures b.loading && b.error == "" && b.editingWorkExp.None?
    ensures forall t :: TabCount(b, t) == 0
    ensures !b.showWorkExpForm && !b.showSkillForm && !b.showCertForm && !b.showProjectForm
  {
    Builder([], [], [], [], false, false, false, false, None, true, "")
  }

  datatype Tab = ExperienceTab | SkillsTab | CertificationsTab | ProjectsTab

  /** The count badge of each tab. */
  function TabCount(b: Builder, t: Tab): nat {
    match t
    case ExperienceTab => |b.workExperiences|
    case SkillsTab => |b.skills|
    case CertificationsTab => |b.certifications|
    case ProjectsTab => |b.projects|
  }

  /** The backend calls a handler makes, with the token it sends. */
  datatype ApiCall =
    | CreateWorkExperience(data: WorkExperienceCreate, token: string)
    | UpdateWorkExperience(id: Key, data: WorkExperienceCreate, token: string)
    | DeleteWorkExperience(id: Key, token: string)
    | CreateCandidateSkill(skill: CandidateSkillCreate, token: string)
    | DeleteCandidateSkill(id: Key, token: string)
    | CreateCandidateCertification(cert: CandidateCertificationCreate, token: string)
    | DeleteCandidateCertification(id: Key, token: string)
    | CreateCandidateProject(project: CandidateProjectCreate, token: string)
    | DeleteCandidateProject(id: Key, token: string)

  /** A handler run: the new state, the call made (if any) and the error it
      rethrows to the form that invoked it (if any). */
  datatype Step = Step(state: Builder, call: Option<ApiCall>, raised: Option<Thrown>)

  /** The four lists `loadAllData` awaits together. */
  datatype ProfileLists = ProfileLists(
    workExperiences: seq<WorkExperience>, skills: seq<CandidateSkill>,
    certifications: seq<CandidateCertification>, projects: seq<CandidateProject>)

  const LoadFailure: string := "Failed to load profile data"

  /** `loadAllData`, the four loads taken as one step: all lists are replaced
      or, on any failure, none is and the message is shown. */
  function LoadAllData(b: Builder, result: Outcome<ProfileLists>): (r: Builder)
    ensures !r.loading
    ensures result.Resolved? ==>
      && r.error == "" && r.workExperiences == result.value.workExperiences
      && r.skills == result.value.skills && r.certifications == result.value.certifications
      && r.projects == result.value.projects
    ensures r == b.(workExperiences := r.workExperiences, skills := r.skills,
                    certifications := r.certifications, projects := r.projects,
                    loading := r.loading, error := r.error)
    ensures result.Rejected? ==> r == b.(loading := false, error := MessageOr(result.error, LoadFailure))
  {
    match result
    case Resolved(lists) =>
      b.(workExperiences := lists.workExperiences, skills := lists.skills,
         certifications := lists.certifications, projects := lists.projects,
         loading := false, error := "")
    case Rejected(err) => b.(loading := false, error := MessageOr(err, LoadFailure))
  }

  /** The appended list on success; the unchanged list and the rethrown error otherwise. */
  predicate AppendedOnSuccess<T(==)>(before: seq<T>, after: seq<T>, created: Outcome<T>) {
    if created.Resolved? then
      |after| == |before| + 1 && after[..|before|] == before && after[|before|] == created.value
    else after == before
  }

  function HandleAddWorkExp(b: Builder, session: Option<Session>, data: WorkExperienceCreate, created: Outcome<WorkExperience>): (r: Step)
    ensures r.call == Some(CreateWorkExperience(data, GetToken(session)))
    ensures AppendedOnSuccess(b.workExperiences, r.state.workExperiences, created)
    ensures created.Resolved? ==>
      && r.raised.None? && !r.state.showWorkExpForm
      && r.state == b.(workExperiences := r.state.workExperiences, showWorkExpForm := false)
    ensures created.Rejected? ==> r.state == b && r.raised == Some(created.error)
  {
    var call := Some(CreateWorkExperience(data, GetToken(session)));
    match created
    case Resolved(exp) => Step(b.(workExperiences := b.workExperiences + [exp], showWorkExpForm := false), call, None)
    case Rejected(err) => Step(b, call, Some(err))
  }

  /** `handleUpdateWorkExp`: without an editing target nothing happens; else
      the target's id is sent, and every listed entry whose id equals the
      returned entry's id is replaced by it. */
  function HandleUpdateWorkExp(b: Builder, session: Option<Session>, data: WorkExperienceCreate, updated: Outcome<WorkExperience>): (r: Step)
    ensures b.editingWorkExp.None? ==> r == Step(b, None, None)
    ensures b.editingWorkExp.Some? ==> r.call == Some(UpdateWorkExperience(b.editingWorkExp.value.workExpId, data, GetToken(session)))
    ensures b.editingWorkExp.Some? && updated.Resolved? ==>
      && r.state.workExperiences == ReplaceById(b.workExperiences, WorkExpKey, updated.value)
      && r.state.editingWorkExp.None? && !r.state.showWorkExpForm && r.raised.None?
      && r.state == b.(workExperiences := r.state.workExperiences, editingWorkExp := None, showWorkExpForm := false)
    ensures b.editingWorkExp.Some? && updated.Rejected? ==> r.state == b && r.raised == Some(updated.error)
  {
    match b.editingWorkExp
    case None => Step(b, None, None)
    case Some(target) =>
      var call := Some(UpdateWorkExperience(target.workExpId, data, GetToken(session)));
      match updated
      case Resolved(exp) =>
        Step(b.(workExperiences := ReplaceById(b.workExperiences, WorkExpKey, exp), editingWorkExp := None, showWorkExpForm := false), call, None)
      case Rejected(err) => Step(b, call, Some(err))
  }

  /** The edit button and the form's cancel button. */
  function StartEditing(b: Builder, exp: WorkExperience): (r: Builder)
    ensures r.editingWorkExp == Some(exp) && r.showWorkExpForm
    ensures r == b.(editingWorkExp := r.editingWorkExp, showWorkExpForm := r.showWorkExpForm)
  {
    b.(editingWorkExp := Some(exp), showWorkExpForm := true)
  }

  function CancelWorkExpForm(b: Builder): (r: Builder)
    ensures r.editingWorkExp.None? && !r.showWorkExpForm
    ensures r == b.(editingWorkExp := r.editingWorkExp, showWorkExpForm := r.showWorkExpForm)
  {
    b.(editingWorkExp := None, showWorkExpForm := false)
  }

  /** The filtered list after a confirmed, successful delete; otherwise the
      list as it was. */
  predicate FilteredOnSuccess<T(==)>(before: seq<T>, after: seq<T>, key: T -> Key, id: Key, confirmed: bool, deleted: Outcome<()>) {
    after == if confirmed && deleted.Resolved? then RemoveById(before, key, id) else before
  }

  function HandleDeleteWorkExp(b: Builder, session: Option<Session>, id: Key, confirmed: bool, deleted: Outcome<()>): (r: Step)
    ensures !confirmed ==> r == Step(b, None, None)
    ensures confirmed ==> r.call == Some(DeleteWorkExperience(id, GetToken(session)))
    ensures FilteredOnSuccess(b.workExperiences, r.state.workExperiences, WorkExpKey, id, confirmed, deleted)
    ensures r.state == b.(workExperiences := r.state.workExperiences)
    ensures confirmed && deleted.Rejected? ==> r.raised == Some(deleted.error)
    ensures confirmed && deleted.Resolved? ==> r.raised.None?
  {
    if !confirmed then Step(b, None, None)
    else
      var call := Some(DeleteWorkExperience(id, GetToken(session)));
      match deleted
      case Resolved(_) => Step(b.(workExperiences := RemoveById(b.workExperiences, WorkExpKey, id)), call, None)
      case Rejected(err) => Step(b, call, Some(err))
  }

  function HandleAddSkill(b: Builder, session: Option<Session>, data: CandidateSkillCreate, created: Outcome<CandidateSkill>): (r: Step)
    ensures r.call == Some(CreateCandidateSkill(data, GetToken(session)))
    ensures AppendedOnSuccess(b.skills, r.state.skills, created)
    ensures created.Resolved? ==> r.raised.None? && r.state == b.(skills := r.state.skills, showSkillForm := false)
    ensures created.Rejected? ==> r.state == b && r.raised == Some(created.error)
  {
    var call := Some(CreateCandidateSkill(data, GetToken(session)));
    match created
    case Resolved(skill) => Step(b.(skills := b.skills + [skill], showSkillForm := false), call, None)
    case Rejected(err) => Step(b, call, Some(err))
  }

  function HandleDeleteSkill(b: Builder, session: Option<Session>, id: Key, confirmed: bool, deleted: Outcome<()>): (r: Step)
    ensures !confirmed ==> r == Step(b, None, None)
    ensures confirmed ==> r.call == Some(DeleteCandidateSkill(id, GetToken(session)))
    ensures FilteredOnSuccess(b.skills, r.state.skills, SkillKey, id, confirmed, deleted)
    ensures r.state == b.(skills := r.state.skills)
    ensures confirmed && deleted.Rejected? ==> r.raised == Some(deleted.error)
    ensures confirmed && deleted.Resolved? ==> r.raised.None?
  {
    if !confirmed then Step(b, None, None)
    else
      var call := Some(DeleteCandidateSkill(id, GetToken(session)));
      match deleted
      case Resolved(_) => Step(b.(skills := RemoveById(b.skills, SkillKey, id)), call, None)
      case Rejected(err) => Step(b, call, Some(err))
  }

  function HandleAddCert(b: Builder, session: Option<Session>, data: CandidateCertificationCreate, created: Outcome<CandidateCertification>): (r: Step)
    ensures r.call == Some(CreateCandidateCertification(data, GetToken(session)))
    ensures AppendedOnSuccess(b.certifications, r.state.certifications, created)
    ensures created.Resolved? ==> r.raised.None? && r.state == b.(certifications := r.state.certifications, showCertForm := false)
    ensures created.Rejected? ==> r.state == b && r.raised == Some(created.error)
  {
    var call := Some(CreateCandidateCertification(data, GetToken(session)));
    match created
    case Resolved(cert) => Step(b.(certifications := b.certifications + [cert], showCertForm := false), call, None)
    case Rejected(err) => Step(b, call, Some(err))
  }

  function HandleDeleteCert(b: Builder, session: Option<Session>, id: Key, confirmed: bool, deleted: Outcome<()>): (r: Step)
    ensures !confirmed ==> r == Step(b, None, None)
    ensures confirmed ==> r.call == Some(DeleteCandidateCertification(id, GetToken(session)))
    ensures FilteredOnSuccess(b.certifications, r.state.certifications, CertKey, id, confirmed, deleted)
    ensures r.state == b.(certifications := r.state.certifications)
    ensures confirmed && deleted.Rejected? ==> r.raised == Some(deleted.error)
    ensures confirmed && deleted.Resolved? ==> r.raised.None?
  {
    if !confirmed then Step(b, None, None)
    else
      var call := Some(DeleteCandidateCertification(id, GetToken(session)));
      match deleted
      case Resolved(_) => Step(b.(certifications := RemoveById(b.certifications, CertKey, id)), call, None)
      case Rejected(err) => Step(b, call, Some(err))
  }

  function HandleAddProject(b: Builder, session: Option<Session>, data: CandidateProjectCreate, created: Outcome<CandidateProject>): (r: Step)
    ensures r.call == Some(CreateCandidateProject(data, GetToken(session)))
    ensures AppendedOnSuccess(b.projects, r.state.projects, created)
    ensures created.Resolved? ==> r.raised.None? && r.state == b.(projects := r.state.projects, showProjectForm := false)
    ensures created.Rejected? ==> r.state == b && r.raised == Some(created.error)
  {
    var call := Some(CreateCandidateProject(data, GetToken(session)));
    match created
    case Resolved(project) => Step(b.(projects := b.projects + [project], showProjectForm := false), call, None)
    case Rejected(err) => Step(b, call, Some(err))
  }

  function HandleDeleteProject(b: Builder, session: Option<Session>, id: Key, confirmed: bool, deleted: Outcome<()>): (r: Step)
    ensures !confirmed ==> r == Step(b, None, None)
    ensures confirmed ==> r.call == Some(DeleteCandidateProject(id, GetToken(session)))
    ensures FilteredOnSuccess(b.projects, r.state.projects, ProjectKey, id, confirmed, deleted)
    ensures r.state == b.(projects := r.state.projects)
    ensures confirmed && deleted.Rejected? ==> r.raised == Some(deleted.error)
    ensures confirmed && deleted.Resolved? ==> r.raised.None?
  {
    if !confirmed then Step(b, None, None)
    else
      var call := Some(DeleteCandidateProject(id, GetToken(session)));
      match deleted
      case Resolved(_) => Step(b.(projects := RemoveById(b.projects, ProjectKey, id)), call, None)
      case Rejected(err) => Step(b, call, Some(err))
  }

  /** A successful add raises its own tab's count by one and leaves the
      other badges alone. */
  lemma AddSkillCounts(b: Builder, session: Option<Session>, data: CandidateSkillCreate, skill: CandidateSkill, t: Tab)
    ensures TabCount(HandleAddSkill(b, session, data, Resolved(skill)).state, t) == TabCount(b, t) + (if t == SkillsTab then 1 else 0)
  {
  }

  /** A confirmed delete drops the badge by the number of entries with that
      id, and by nothing when the id is absent. */
  lemma {:induction false} DeleteProjectCounts(b: Builder, session: Option<Session>, id: Key)
    ensures TabCount(HandleDeleteProject(b, session, id, true, Resolved(())).state, ProjectsTab)
      == TabCount(b, ProjectsTab) - Occurrences(b.projects, ProjectKey, id)
  {
    RemoveByIdCount(b.projects, ProjectKey, id);
  }
}

=== FILE: project_form.dfy ===
/** components/profile/ProjectForm.tsx: a project picked from the loaded
    catalogue, the lookup of the picked project's details, two dates and the
    guarded submit. */
module ProjectForm {
  import opened Wrappers
  import opened Js
  import opened Api
  import opened Forms

  datatype ProjectState = ProjectState(
    catalogue: Catalogue<Project>, data: CandidateProjectCreate,
    status: Status, selected: Option<Project>)

  function Initial(): (s: ProjectState)
    ensures s.data.projectId == "" && s.data.startDate == "" && s.data.endDate == ""
    ensures s.selected.None? && s.catalogue.loading && s.catalogue.items == [] && s.status == Idle
  {
    ProjectState(Unloaded(), CandidateProjectCreate("", "", ""), Idle, None)
  }

  const LoadFailure: string := "Failed to load projects"

  function LoadProjects(s: ProjectState, result: Outcome<seq<Project>>): (r: ProjectState)
    ensures !r.catalogue.loading && r.data == s.data && r.selected == s.selected
    ensures result.Resolved? ==> r.catalogue.items == result.value && r.status == s.status
    ensures result.Rejected? ==> r.status == s.status.(error := LoadFailure) && r.catalogue.items == s.catalogue.items
  {
    var loaded := Load(s.catalogue, s.status, result, LoadFailure);
    s.(catalogue := loaded.0, status := loaded.1)
  }

  /** `Array.prototype.find`: the index of the first project satisfying `matches`. */
  function FindFirst(projects: seq<Project>, matches: Project -> bool): (r: Option<nat>)
    ensures r.Some? ==> r.value < |projects| && matches(projects[r.value])
    ensures r.Some? ==> forall j :: 0 <= j < r.value ==> !matches(projects[j])
    ensures r.None? ==> forall j :: 0 <= j < |projects| ==> !matches(projects[j])
    decreases |projects|
  {
    if projects == [] then None
    else if matches(projects[0]) then Some(0)
    else
      match FindFirst(projects[1..], matches)
      case None => None
      case Some(i) => Some(i + 1)
  }

  /** `projects.find(matches)`: the first project satisfying `matches`, if any. */
  function Lookup(projects: seq<Project>, matches: Project -> bool): (r: Option<Project>)
    ensures r.None? <==> forall j :: 0 <= j < |projects| ==> !matches(projects[j])
    ensures r.Some? ==> exists i ::
      && 0 <= i < |projects| && projects[i] == r.value && matches(projects[i])
      && forall j :: 0 <= j < i ==> !matches(projects[j])
  {
    match FindFirst(projects, matches)
    case None => None
    case Some(i) => Some(projects[i])
  }

  /** `handleProjectSelect` as written: the select's string value is compared
      with `===` against each project's id, so a numeric id never matches. */
  function HandleProjectSelectAsWritten(s: ProjectState, value: string): (r: ProjectState)
    ensures r.data == s.data.(projectId := value)
    ensures r.selected.Some? ==> r.selected.value in s.catalogue.items && r.selected.value.projectId == StringKey(value)
    ensures r.selected.Some? ==> exists i ::
      && 0 <= i < |s.catalogue.items| && s.catalogue.items[i] == r.selected.value
      && forall j :: 0 <= j < i ==> s.catalogue.items[j].projectId != StringKey(value)
    ensures r.selected.None? ==> forall j :: 0 <= j < |s.catalogue.items| ==> s.catalogue.items[j].projectId != StringKey(value)
    ensures r.catalogue == s.catalogue && r.status == s.status
  {
    s.(data := s.data.(projectId := value),
       selected := Lookup(s.catalogue.items, (p: Project) => p.projectId == StringKey(value)))
  }

  /** `handleProjectSelect` comparing the value with the text the project's
      option shows, `String(p.project_id) === projectId`. */
  function HandleProjectSelect(s: ProjectState, value: string): (r: ProjectState)
    ensures r.data == s.data.(projectId := value)
    ensures r.selected.Some? ==> r.selected.value in s.catalogue.items && KeyText(r.selected.value.projectId) == value
    ensures r.selected.Some? ==> exists i ::
      && 0 <= i < |s.catalogue.items| && s.catalogue.items[i] == r.selected.value
      && forall j :: 0 <= j < i ==> KeyText(s.catalogue.items[j].projectId) != value
    ensures r.selected.None? ==> forall j :: 0 <= j < |s.catalogue.items| ==> KeyText(s.catalogue.items[j].projectId) != value
    ensures r.catalogue == s.catalogue && r.status == s.status
  {
    s.(data := s.data.(projectId := value),
       selected := Lookup(s.catalogue.items, (p: Project) => KeyText(p.projectId) == value))
  }

  /** With numeric ids, as lib/api.ts declares them, the as-written lookup
      never finds the project the user picked. */
  lemma AsWrittenNeverSelectsNumericIds(s: ProjectState, value: string)
    requires forall j :: 0 <= j < |s.catalogue.items| ==> s.catalogue.items[j].projectId.NumberKey?
    ensures HandleProjectSelectAsWritten(s, value).selected.None?
  {
  }

  /** The concrete case: a catalogue holding project 7, and the user picks the option "7". */
  lemma AsWrittenMissesPickedProject()
    ensures var p := Project(NumberKey(7), "Resume tailor", None);
      var s := ProjectState(Catalogue([p], false), CandidateProjectCreate("", "", ""), Idle, None);
      HandleProjectSelectAsWritten(s, KeyText(p.projectId)).selected.None?
      && HandleProjectSelect(s, KeyText(p.projectId)).selected == Some(p)
  {
    var p := Project(NumberKey(7), "Resume tailor", None);
    assert KeyText(p.projectId) == "7";
  }

  /** Picking the option rendered for a project selects that project, when
      the option texts are distinct. */
  lemma SelectsPickedProject(s: ProjectState, i: nat)
    requires i < |s.catalogue.items|
    requires forall j, k :: 0 <= j < k < |s.catalogue.items| ==>
      KeyText(s.catalogue.items[j].projectId) != KeyText(s.catalogue.items[k].projectId)
    ensures HandleProjectSelect(s, KeyText(s.catalogue.items[i].projectId)).selected == Some(s.catalogue.items[i])
  {
    var items := s.catalogue.items;
    var value := KeyText(items[i].projectId);
    var found := FindFirst(items, (p: Project) => KeyText(p.projectId) == value);
    assert found.Some?;
    assert found.value == i;
  }

  /** With string ids both lookups agree. */
  lemma AgreeOnStringIds(s: ProjectState, value: string)
    requires forall j :: 0 <= j < |s.catalogue.items| ==> s.catalogue.items[j].projectId.StringKey?
    ensures HandleProjectSelectAsWritten(s, value) == HandleProjectSelect(s, value)
  {
    var items := s.catalogue.items;
    var f: Project -> bool := (p: Project) => p.projectId == StringKey(value);
    var g: Project -> bool := (p: Project) => KeyText(p.projectId) == value;
    assert forall j :: 0 <= j < |items| ==> f(items[j]) == g(items[j]);
    FindFirstAgrees(items, f, g);
  }

  lemma {:induction false} FindFirstAgrees(projects: seq<Project>, f: Project -> bool, g: Project -> bool)
    requires forall j :: 0 <= j < |projects| ==> f(projects[j]) == g(projects[j])
    ensures FindFirst(projects, f) == FindFirst(projects, g)
    decreases |projects|
  {
    if projects != [] {
      FindFirstAgrees(projects[1..], f, g);
    }
  }

  /** The two date inputs. */
  function SetStartDate(s: ProjectState, value: string): (r: ProjectState)
    ensures r.data.startDate == value && r.data.endDate == s.data.endDate
    ensures r.data.projectId == s.data.projectId && r.selected == s.selected
    ensures r.catalogue == s.catalogue && r.status == s.status
  {
    s.(data := s.data.(startDate := value))
  }

  function SetEndDate(s: ProjectState, value: string): (r: ProjectState)
    ensures r.data.endDate == value && r.data.startDate == s.data.startDate
    ensures r.data.projectId == s.data.projectId && r.selected == s.selected
    ensures r.catalogue == s.catalogue && r.status == s.status
  {
    s.(data := s.data.(endDate := value))
  }

  const MissingProject: string := "Please select a project"
  const SubmitFailure: string := "Failed to add project"

  function HandleSubmit(s: ProjectState, outcome: Outcome<()>): (r: Submission<CandidateProjectCreate>)
    ensures s.data.projectId == "" ==> r.sent.None? && r.after.error == MissingProject && r.after.loading == s.status.loading
    ensures s.data.projectId != "" ==> r.sent == Some(s.data) && r.during == Status(true, "") && !r.after.loading
    ensures s.data.projectId != "" && outcome.Rejected? ==> r.after.error == MessageOr(outcome.error, SubmitFailure)
    ensures s.data.projectId != "" && outcome.Resolved? ==> r.after.error == ""
  {
    GuardedSubmit(s.status, s.data.projectId, MissingProject, s.data, outcome, SubmitFailure)
  }
}

=== FILE: signup.dfy ===
/** app/auth/signup/page.tsx: field updates, the validation order, the
    registration payload and the messages a failed registration shows. */
module Signup {
  import opened Wrappers
  import opened Js
  import opened Api

  datatype SignupForm = SignupForm(
    fullName: string, email: string, password: string, confirmPassword: string,
    phone: string, linkedin: string, github: string)

  /** The form on first render: every input empty. Submitting it untouched
      fails the length check, since the two empty passwords match. */
  function EmptyForm(): (f: SignupForm)
    ensures forall k :: FieldValue(f, k) == ""
    ensures Validate(f) == Some(PasswordTooShort)
  {
    SignupForm("", "", "", "", "", "", "")
  }

  /** The `name` attributes of the seven inputs. */
  datatype Field = FullName | Email | Password | ConfirmPassword | Phone | Linkedin | Github

  function FieldValue(f: SignupForm, k: Field): string {
    match k
    case FullName => f.fullName
    case Email => f.email
    case Password => f.password
    case ConfirmPassword => f.confirmPassword
    case Phone => f.phone
    case Linkedin => f.linkedin
    case Github => f.github
  }

  /** `handleChange`: the named field takes the input's value; no other field moves. */
  function HandleChange(f: SignupForm, k: Field, value: string): (r: SignupForm)
    ensures forall k' :: FieldValue(r, k') == if k' == k then value else FieldValue(f, k')
  {
    match k
    case FullName => f.(fullName := value)
    case Email => f.(email := value)
    case Password => f.(password := value)
    case ConfirmPassword => f.(confirmPassword := value)
    case Phone => f.(phone := value)
    case Linkedin => f.(linkedin := value)
    case Github => f.(github := value)
  }

  const PasswordsDoNotMatch: string := "Passwords do not match"
  const PasswordTooShort: string := "Password must be at least 8 characters"
  const MinPasswordLength: nat := 8

  /** The two checks, mismatch first; the length is `password.length`, in
      UTF-16 code units. */
  function Validate(f: SignupForm): (r: Option<string>)
    ensures r == Some(PasswordsDoNotMatch) <==> f.password != f.confirmPassword
    ensures r == Some(PasswordTooShort) <==> f.password == f.confirmPassword && Utf16Length(f.password) < MinPasswordLength
    ensures r.None? <==> f.password == f.confirmPassword && Utf16Length(f.password) >= MinPasswordLength
  {
    if f.password != f.confirmPassword then Some(PasswordsDoNotMatch)
    else if Utf16Length(f.password) < MinPasswordLength then Some(PasswordTooShort)
    else None
  }

  /** The JSON body POSTed to `/auth/register`; `confirmPassword` is not part of it. */
  datatype RegisterPayload = RegisterPayload(
    fullName: string, email: string, password: string,
    phone: Option<string>, linkedin: Option<string>, github: Option<string>)

  function Payload(f: SignupForm): (p: RegisterPayload)
    ensures p.fullName == f.fullName && p.email == f.email && p.password == f.password
    ensures p.phone.None? <==> f.phone == ""
    ensures p.linkedin.None? <==> f.linkedin == ""
    ensures p.github.None? <==> f.github == ""
    ensures AbsentToBlank(p.phone) == f.phone && AbsentToBlank(p.linkedin) == f.linkedin && AbsentToBlank(p.github) == f.github
  {
    RegisterPayload(f.fullName, f.email, f.password, BlankToAbsent(f.phone), BlankToAbsent(f.linkedin), BlankToAbsent(f.github))
  }

  /** Two forms that differ only in their confirmation send the same payload. */
  lemma PayloadIgnoresConfirmation(f: SignupForm, confirm: string)
    ensures Payload(HandleChange(f, ConfirmPassword, confirm)) == Payload(f)
  {
  }

  const RegistrationFailed: string := "Registration failed"
  const GenericFailure: string := "An error occurred. Please try again."

  /** The Error a failed registration throws (`data.detail || "Registration
      failed"`), or what awaiting the response or its body rejects with: the
      body's `response.json()` is not caught, so a body that does not parse
      surfaces the parser's SyntaxError message, and a `null` body the
      TypeError of reading `.detail`. */
  function RegistrationError(exchange: Exchange): (e: Option<Thrown>)
    ensures exchange.TransportFailure? ==> e == Some(ErrorObject(exchange.message))
    ensures exchange.Received? ==> (e.None? <==> exchange.response.ok)
    ensures e.Some? ==> e.value.ErrorObject?
    ensures exchange.Received? && !exchange.response.ok && exchange.response.body.Unparseable? ==>
      e == Some(ErrorObject(exchange.response.body.parserMessage))
    ensures exchange.Received? && !exchange.response.ok && exchange.response.body == Parsed(JsonNull) ==>
      e == Some(ErrorObject(NullDetailMessage))
    ensures exchange.Received? && !exchange.response.ok && exchange.response.body.Parsed? && exchange.response.body.json.JsonValue? ==>
      var d := exchange.response.body.json.detail;
      e == Some(ErrorObject(if DetailTruthy(d) then DetailMessage(d) else RegistrationFailed))
  {
    match exchange
    case TransportFailure(m) => Some(ErrorObject(m))
    case Received(response) =>
      if response.ok then None
      else
        match response.body
        case Unparseable(m) => Some(ErrorObject(m))
        case Parsed(JsonNull) => Some(ErrorObject(NullDetailMessage))
        case Parsed(JsonValue(d)) => Some(ErrorObject(if DetailTruthy(d) then DetailMessage(d) else RegistrationFailed))
  }

  datatype SignupState = SignupState(form: SignupForm, error: string, loading: bool)

  /** One submit: the state afterwards, the registration payload if one was
      sent, whether sign-in was attempted, and where the router goes. */
  datatype SignupRun = SignupRun(state: SignupState, registered: Option<RegisterPayload>, signInAttempted: bool, navigation: Option<string>)

  const SignedInPath: string := "/"
  const SignInPath: string := "/auth/signin?message=Account created. Please sign in."

  /** `handleSubmit`. The error is cleared first; a validation failure shows
      its message and sends nothing; otherwise the payload is registered and,
      on success, sign-in decides where to go. */
  function HandleSubmit(s: SignupState, exchange: Exchange, signInOk: bool): (r: SignupRun)
    ensures r.state.form == s.form
    ensures Validate(s.form).Some? ==> r == SignupRun(s.(error := Validate(s.form).value), None, false, None)
    ensures Validate(s.form).None? ==> r.registered == Some(Payload(s.form)) && !r.state.loading
    ensures Validate(s.form).None? && RegistrationError(exchange).Some? ==>
      !r.signInAttempted && r.navigation.None? && r.state.error == MessageOr(RegistrationError(exchange).value, GenericFailure)
    ensures Validate(s.form).None? && RegistrationError(exchange).None? ==>
      r.signInAttempted && r.state.error == "" && r.navigation == Some(if signInOk then SignedInPath else SignInPath)
  {
    var cleared := s.(error := "");
    match Validate(s.form)
    case Some(message) => SignupRun(cleared.(error := message), None, false, None)
    case None =>
      var payload := Payload(s.form);
      match RegistrationError(exchange)
      case Some(err) => SignupRun(cleared.(error := MessageOr(err, GenericFailure), loading := false), Some(payload), false, None)
      case None => SignupRun(cleared.(loading := false), Some(payload), true, Some(if signInOk then SignedInPath else SignInPath))
  }

  /** A failed registration always shows something, and shows a truthy
      string `detail` verbatim. */
  lemma RegistrationMessageShown(s: SignupState, detail: string, status: int, statusText: string, signInOk: bool)
    requires Validate(s.form).None?
    ensures var r := HandleSubmit(s, Received(Response(false, status, statusText, Parsed(JsonValue(StringDetail(detail))))), signInOk);
      r.state.error == (if detail != "" then detail else RegistrationFailed)
  {
  }
}

=== FILE: skill_selector.dfy ===
/** components/profile/SkillSelector.tsx: a skill picked from the catalogue
    loaded once into a plain select, a level 1..5, and the guarded submit. */
module SkillSelector {
  import opened Wrappers
  import opened Js
  import opened Decimal
  import opened Api
  import opened Forms

  datatype SelectorState = SelectorState(catalogue: Catalogue<Skill>, data: CandidateSkillCreate, status: Status)

  function Initial(): (s: SelectorState)
    ensures s.data.skillId == "" && s.data.level.None? && s.data.yearsExperience.None?
    ensures s.catalogue.loading && s.catalogue.items == [] && s.status == Idle
  {
    SelectorState(Unloaded(), CandidateSkillCreate("", None, None), Idle)
  }

  const LoadFailure: string := "Failed to load skills"

  /** `loadSkills`. */
  function LoadSkills(s: SelectorState, result: Outcome<seq<Skill>>): (r: SelectorState)
    ensures !r.catalogue.loading && r.data == s.data
    ensures result.Resolved? ==> r.catalogue.items == result.value && r.status == s.status
    ensures result.Rejected? ==> r.status == s.status.(error := LoadFailure) && r.catalogue.items == s.catalogue.items
  {
    var loaded := Load(s.catalogue, s.status, result, LoadFailure);
    s.(catalogue := loaded.0, status := loaded.1)
  }

  /** The skill select's `onChange`. */
  function SelectSkill(s: SelectorState, value: string): (r: SelectorState)
    ensures r.data.skillId == value
    ensures r.data.level == s.data.level && r.data.yearsExperience == s.data.yearsExperience
    ensures r.catalogue == s.catalogue && r.status == s.status
  {
    s.(data := s.data.(skillId := value))
  }

  /** The values the level select offers. */
  const LevelOptions: seq<string> := ["", "1", "2", "3", "4", "5"]

  /** The level select's `onChange`: `""` means unspecified, anything else is
      `parseInt` of the option's digits. */
  function ChooseLevel(s: SelectorState, value: string): (r: SelectorState)
    requires value in LevelOptions
    ensures r.data.level.None? <==> value == ""
    ensures r.data.level.Some? ==> 1 <= r.data.level.value <= 5 && IntToText(r.data.level.value) == value
    ensures r.data.skillId == s.data.skillId && r.data.yearsExperience == s.data.yearsExperience
    ensures r.catalogue == s.catalogue && r.status == s.status
  {
    var level := if value == "" then None else Some(TextValue(value) as int);
    s.(data := s.data.(level := level))
  }

  /** The select's displayed value, `formData.level || ""`. */
  function LevelShown(level: Option<int>): string {
    match level
    case None => ""
    case Some(n) => if n == 0 then "" else IntToText(n)
  }

  /** Choosing an option makes the select show that same option. */
  lemma LevelRoundTrip(s: SelectorState, value: string)
    requires value in LevelOptions
    ensures LevelShown(ChooseLevel(s, value).data.level) == value
  {
  }

  const MissingSkill: string := "Please select a skill"
  const SubmitFailure: string := "Failed to add skill"

  /** `handleSubmit`: with no skill chosen only the message is set; otherwise
      the form data is handed over as it is. */
  function HandleSubmit(s: SelectorState, outcome: Outcome<()>): (r: Submission<CandidateSkillCreate>)
    ensures s.data.skillId == "" ==> r.sent.None? && r.after.error == MissingSkill && r.after.loading == s.status.loading
    ensures s.data.skillId != "" ==> r.sent == Some(s.data) && r.during == Status(true, "") && !r.after.loading
    ensures s.data.skillId != "" && outcome.Rejected? ==> r.after.error == MessageOr(outcome.error, SubmitFailure)
    ensures s.data.skillId != "" && outcome.Resolved? ==> r.after.error == ""
  {
    GuardedSubmit(s.status, s.data.skillId, MissingSkill, s.data, outcome, SubmitFailure)
  }
}

=== FILE: text.dfy ===
/** Prefix tests and splitting at the first occurrence of a separator. */
module Text {
  import opened Wrappers

  predicate StartsWith(s: string, prefix: string) {
    |prefix| <= |s| && s[..|prefix|] == prefix
  }

  /** Splits `s` around the first `sep`, or None when `sep` does not occur. */
  function SplitAtFirst(s: string, sep: char): (r: Option<(string, string)>)
    ensures r.Some? ==> s == r.value.0 + [sep] + r.value.1 && sep !in r.value.0
    ensures r.None? ==> sep !in s
  {
    if s == [] then None
    else if s[0] == sep then Some(([], s[1..]))
    else
      match SplitAtFirst(s[1..], sep)
      case None => None
      case Some(parts) => Some(([s[0]] + parts.0, parts.1))
  }

  lemma {:induction false} SplitAtFirstOfJoin(a: string, sep: char, b: string)
    requires sep !in a
    ensures SplitAtFirst(a + [sep] + b, sep) == Some((a, b))
    decreases |a|
  {
    var s := a + [sep] + b;
    if a != [] {
      assert s[0] == a[0];
      assert s[1..] == a[1..] + [sep] + b;
      SplitAtFirstOfJoin(a[1..], sep, b);
      assert [a[0]] + a[1..] == a;
    } else {
      assert s[1..] == b;
    }
  }
}

=== FILE: theme.dfy ===
/** components/ThemeProvider.tsx: the theme, the value persisted in local
    storage and the `dark` class on the root element, as one state record. */
module Theme {
  import opened Wrappers
  import opened Js

  const Light: string := "light"
  const Dark: string := "dark"

  /** `theme` is whatever string was last set: a saved value is not checked
      against "light" and "dark". */
  datatype ThemeState = ThemeState(theme: string, stored: Option<string>, darkClass: bool, mounted: bool)

  /** The root element's class agrees with the theme. */
  predicate Consistent(s: ThemeState) {
    s.darkClass <==> s.theme == Dark
  }

  /** Before the mount effect runs: the theme is "light"; storage and the
      class are whatever the browser has. */
  function Initial(stored: Option<string>, darkClass: bool): (s: ThemeState)
    ensures s.theme == Light && !s.mounted && s.stored == stored && s.darkClass == darkClass
  {
    ThemeState(Light, stored, darkClass, false)
  }

  /** The mount effect: a non-empty saved value wins as it is; otherwise the
      system preference decides. Nothing is written to storage. */
  function Mount(s: ThemeState, prefersDark: bool): (r: ThemeState)
    ensures r.mounted && r.stored == s.stored && Consistent(r)
    ensures s.stored.Some? && s.stored.value != "" ==> r.theme == s.stored.value
    ensures s.stored.None? || s.stored.value == "" ==> (r.theme == Dark <==> prefersDark) && (r.theme == Light <==> !prefersDark)
  {
    match s.stored
    case Some(saved) =>
      if saved != "" then ThemeState(saved, s.stored, saved == Dark, true)
      else ThemeState(if prefersDark then Dark else Light, s.stored, prefersDark, true)
    case None => ThemeState(if prefersDark then Dark else Light, s.stored, prefersDark, true)
  }

  /** `toggleTheme`: "light" becomes "dark", anything else becomes "light";
      the new theme is persisted and the class follows it. */
  function Toggle(s: ThemeState): (r: ThemeState)
    ensures s.theme == Light ==> r.theme == Dark
    ensures s.theme != Light ==> r.theme == Light
    ensures r.stored == Some(r.theme) && Consistent(r) && r.mounted == s.mounted
  {
    var next := if s.theme == Light then Dark else Light;
    ThemeState(next, Some(next), next == Dark, s.mounted)
  }

  /** After one toggle the theme is valid again, whatever was saved. */
  lemma ToggleNormalises(s: ThemeState)
    ensures Toggle(s).theme == Light || Toggle(s).theme == Dark
  {
  }

  /** Two toggles restore a valid theme, and persist it. */
  lemma ToggleTwice(s: ThemeState)
    requires s.theme == Light || s.theme == Dark
    ensures Toggle(Toggle(s)).theme == s.theme && Toggle(Toggle(s)).stored == Some(s.theme)
  {
  }

  /** An unchecked saved value is not restored by two toggles. */
  lemma ToggleTwiceLosesUnknownTheme(s: ThemeState)
    requires s.theme != Light && s.theme != Dark
    ensures Toggle(Toggle(s)).theme == Dark != s.theme
  {
  }

  /** A provider that was mounted and toggled any number of times keeps the
      class in step with the theme. */
  function ToggleTimes(s: ThemeState, n: nat): ThemeState
    decreases n
  {
    if n == 0 then s else Toggle(ToggleTimes(s, n - 1))
  }

  lemma {:induction false} ToggleTimesConsistent(s: ThemeState, prefersDark: bool, n: nat)
    ensures Consistent(ToggleTimes(Mount(s, prefersDark), n))
    ensures ToggleTimes(Mount(s, prefersDark), n).mounted
    decreases n
  {
    if n > 0 {
      ToggleTimesConsistent(s, prefersDark, n - 1);
    }
  }

  const OutsideProvider: string := "useTheme must be used within a ThemeProvider"

  /** `useTheme`: the provider's state, or the Error thrown outside one. */
  function UseTheme(context: Option<ThemeState>): (r: Outcome<ThemeState>)
    ensures context.Some? ==> r == Resolved(context.value)
    ensures context.None? ==> r == Rejected(ErrorObject(OutsideProvider))
  {
    match context
    case Some(s) => Resolved(s)
    case None => Rejected(ErrorObject(OutsideProvider))
  }
}

=== FILE: work_experience_form.dfy ===
/** components/profile/WorkExperienceForm.tsx: the form state seeded from an
    existing entry, the per-field inputs, and the payload cleaned of blanks. */
module WorkExperienceForm {
  import opened Wrappers
  import opened Js
  import opened Api
  import opened Forms

  /** The six inputs; every one holds a string. */
  datatype FormData = FormData(
    company: string, role: string, location: string, details: string,
    startDate: string, endDate: string)

  /** `experience?.field || ""` for each of the six fields. */
  function InitialData(experience: Option<WorkExperience>): (d: FormData)
    ensures experience.None? ==> d == FormData("", "", "", "", "", "")
    ensures experience.Some? ==>
      var e := experience.value;
      && d.company == e.company && d.role == e.role
      && d.location == AbsentToBlank(e.location) && d.details == AbsentToBlank(e.details)
      && d.startDate == AbsentToBlank(e.startDate) && d.endDate == AbsentToBlank(e.endDate)
  {
    match experience
    case None => FormData("", "", "", "", "", "")
    case Some(e) =>
      FormData(e.company, e.role, AbsentToBlank(e.location), AbsentToBlank(e.details),
               AbsentToBlank(e.startDate), AbsentToBlank(e.endDate))
  }

  datatype Field = Company | Role | Location | Details | StartDate | EndDate

  function FieldValue(d: FormData, k: Field): string {
    match k
    case Company => d.company
    case Role => d.role
    case Location => d.location
    case Details => d.details
    case StartDate => d.startDate
    case EndDate => d.endDate
  }

  /** The `onChange` of each input. */
  function SetField(d: FormData, k: Field, value: string): (r: FormData)
    ensures forall k' :: FieldValue(r, k') == if k' == k then value else FieldValue(d, k')
  {
    match k
    case Company => d.(company := value)
    case Role => d.(role := value)
    case Location => d.(location := value)
    case Details => d.(details := value)
    case StartDate => d.(startDate := value)
    case EndDate => d.(endDate := value)
  }

  /** `cleanedData`: company and role verbatim, the four optional fields
      absent when empty and kept otherwise. */
  function CleanedData(d: FormData): (c: WorkExperienceCreate)
    ensures c.company == d.company && c.role == d.role
    ensures c.location.None? <==> d.location == ""
    ensures c.details.None? <==> d.details == ""
    ensures c.startDate.None? <==> d.startDate == ""
    ensures c.endDate.None? <==> d.endDate == ""
    ensures AbsentToBlank(c.location) == d.location && AbsentToBlank(c.details) == d.details
    ensures AbsentToBlank(c.startDate) == d.startDate && AbsentToBlank(c.endDate) == d.endDate
  {
    WorkExperienceCreate(d.company, d.role, BlankToAbsent(d.location), BlankToAbsent(d.details),
                         BlankToAbsent(d.startDate), BlankToAbsent(d.endDate))
  }

  /** The entry the backend stores for a payload. */
  function Stored(id: Key, c: WorkExperienceCreate): WorkExperience {
    WorkExperience(id, c.company, c.role, c.location, c.details, c.startDate, c.endDate)
  }

  /** Saving a form and reopening the saved entry for editing shows the same form. */
  lemma EditRoundTrip(d: FormData, id: Key)
    ensures InitialData(Some(Stored(id, CleanedData(d)))) == d
  {
  }

  /** Reopening an entry and saving it unchanged sends the entry back, except
      that a present but empty optional field becomes absent. */
  lemma ResaveRoundTrip(e: WorkExperience)
    ensures var c := CleanedData(InitialData(Some(e)));
      && c.company == e.company && c.role == e.role
      && (c.location == e.location <==> e.location != Some(""))
      && (c.details == e.details <==> e.details != Some(""))
      && (c.startDate == e.startDate <==> e.startDate != Some(""))
      && (c.endDate == e.endDate <==> e.endDate != Some(""))
  {
    AbsentRoundTrip(e.location);
    AbsentRoundTrip(e.details);
    AbsentRoundTrip(e.startDate);
    AbsentRoundTrip(e.endDate);
  }

  const SaveFailure: string := "Failed to save work experience"

  /** `handleSubmit`: loading while the cleaned payload is submitted, cleared
      afterwards whatever the outcome; a failure shows `err.message` or the fallback. */
  function HandleSubmit(d: FormData, outcome: Outcome<()>): (r: Submission<WorkExperienceCreate>)
    ensures r.sent == Some(CleanedData(d))
    ensures r.during == Status(true, "") && !r.after.loading
    ensures outcome.Resolved? ==> r.after.error == ""
    ensures outcome.Rejected? ==> r.after.error == MessageOr(outcome.error, SaveFailure)
  {
    Submit(CleanedData(d), outcome, SaveFailure)
  }
}

=== FILE: wrappers.dfy ===
/** Optional values, standing for a TypeScript property that may be `undefined`
    or a value that may be `null`. */
module Wrappers {

  datatype Option<+T> = None | Some(value: T) {

    /** The value, or `default` when there is none. */
    function GetOr(default: T): T {
      match this
      case Some(v) => v
      case None => default
    }
  }
}
